=== FILE: README.md ===
# Local library catalog: controller decisions in Dafny

This project models the decision logic of the catalog controllers of an
Express and Mongoose "local library" application. It covers the book, author
and genre handlers and the author model's schema bounds and virtual fields.
The database is an immutable `Store`: one map per collection (authors, books,
genres, book copies) plus the next id to mint. Each handler is a pure function
from a store and a request to an outcome:

- a rendered view;
- a redirect to a list page or a record page;
- not found (404);
- blocked by dependents;
- failed (a store or validation error passed to `next`);
- unanswered (no response is sent: an exception thrown outside any handler, or a callback that returns without responding).

Handlers that write return the new store with the outcome.

Modules:

- `Text`: whitespace trimming with JavaScript's `\s` set, validator.js HTML
  escaping (with its inverse), and the alphanumeric check.
- `Ids`: record ids, and how a form's reference text casts to an id. Only the
  canonical decimal text of an id casts.
- `Store`: the records, the store invariant, id minting and the lookups the
  pages list.
- `AuthorModel`: the schema bounds and the `name`, `dates` and `url` virtuals.
- `Forms`: genre normalisation, the required-field rule, reference casting and
  genre pre-selection.
- `Responses`: outcomes and redirect targets.
- `BookController`, `AuthorController`, `GenreController`: one function per
  handler.

Some behaviour is judged by libraries and is passed in as a function
parameter:

- `iso` stands in for `isISO8601` followed by `toDate`.
- `fmt` stands in for Luxon's `DATE_MED` formatting.

Where the handlers' code points two ways, the model follows what runs:

- The author and genre update forms build a 404 error for a missing record
  (authorController.js:137-139, genreController.js:114-116) but hand it to a
  `next` the handler does not declare, so no response is sent (see Findings).
- The author and genre delete handlers stop at the blocked page: the author
  one returns after rendering it (authorController.js:121-122) and the genre
  one removes only in its `else` branch (genreController.js:99). The book
  delete handler renders the blocked page and then deletes anyway (see
  Findings).
- The author schema bounds names at 100 characters (models/author.js:6-7),
  and create enforces this when it saves. Author update writes with
  `findByIdAndUpdate`, which runs no validators, so it does not.
- Book update writes with `findByIdAndUpdate` too: no schema validation runs
  and only the paths that cast are written. An author reference that does not
  cast keeps the stored author, and a genre list that does not cast is
  written as empty, so the update never fails where create would.

## Model

| member | source | states |
|---|---|---|
| Text.Trim | controllers/bookController.js:94 | the trimmed value is empty exactly when every character is whitespace, and it neither starts nor ends with whitespace |
| Text.TrimIsPiece | controllers/bookController.js:94 | trimming keeps one contiguous piece of the input and cuts away only whitespace |
| Text.TrimUnique | controllers/bookController.js:94 | any piece surrounded only by whitespace and without whitespace at its ends is the trimmed value |
| Text.TrimIdempotent | controllers/genreController.js:50 | trimming a trimmed value changes nothing |
| Text.Escape | controllers/bookController.js:104 | escaping never shortens a value and leaves only the empty value empty |
| Text.UnescapeEscape | controllers/bookController.js:104 | escaping loses nothing: decoding the eight entities recovers the input |
| Text.EscapeInjective | controllers/genreController.js:50 | two values escape alike exactly when they are equal |
| Text.AlphanumericAfterEscape | controllers/authorController.js:49-55 | the alphanumeric check runs after escaping, and escaping neither makes a name pass it nor fail it |
| Text.EscapeAlnumIdentity | controllers/authorController.js:52-54 | a name of letters and digits escapes to itself |
| Ids.IdText | models/author.js:36 | an id's text is canonical decimal |
| Ids.ParseId | controllers/bookController.js:108 | a reference casts exactly when it is canonical decimal text |
| Ids.ParseIdIff | controllers/bookController.js:108 | a reference casts to id `n` exactly when it is the text of `n` |
| Ids.ParseIdText | controllers/bookController.js:108 | casting the text of an id gives back that id |
| Ids.IdTextInjective | models/author.js:36 | distinct ids have distinct texts |
| Store.FreshId | controllers/bookController.js:128 | a minted id is used by no collection |
| Store.ListIds | controllers/bookController.js:110 | the listing holds exactly the stored ids, in increasing order |
| Store.AllAuthors | controllers/bookController.js:71 | the author choices are exactly the stored authors, in increasing order |
| Store.AllGenres | controllers/bookController.js:72 | the genre choices are exactly the stored genres, each once with its record, in increasing id order |
| Store.BooksByAuthor | controllers/authorController.js:24 | the listed books are exactly those whose author is the id |
| Store.BooksInGenre | controllers/genreController.js:24 | the listed books are exactly those whose genre list contains the id |
| Store.InstancesOfBook | controllers/bookController.js:52 | the listed copies are exactly those of the book |
| Store.FindGenreByName | controllers/genreController.js:61 | the lookup finds nothing exactly when no genre has the name, and otherwise a genre with that exact name |
| Store.SubsetCard | controllers/bookController.js:18-20 | a sub-collection is no larger than the collection |
| AuthorModel.Name | models/author.js:12-14 | the name is the family name, a comma and a space, then the first name |
| AuthorModel.NameInjective | models/author.js:12-14 | for family names without a comma (every validated name), two authors share a name exactly when both of their name parts agree |
| AuthorModel.DatesAbsentIff | models/author.js:17 | the dates text is " (No dates provided)" exactly when there is no date of birth |
| AuthorModel.DatesWithBirth | models/author.js:19-26 | with a birth date the dates text is " (", the birth date, " - ", the death date or nothing, then ")" |
| AuthorModel.Url | models/author.js:35-37 | the url is "/catalog/author/" followed by text that casts back to the id |
| AuthorModel.UrlInjective | models/author.js:35-37 | distinct authors have distinct urls |
| Forms.Normalise | controllers/bookController.js:88-91 | an absent genre field becomes empty, a single value becomes a one-element list, and a list passes through |
| Forms.NormaliseIdempotent | controllers/bookController.js:200-209 | normalising an already normalised list changes nothing |
| Forms.Required | controllers/bookController.js:94 | a required rule reports one error, with its message, exactly when the value is blank after trimming |
| Forms.Sanitise | controllers/genreController.js:50 | the sanitised value is empty exactly when the submitted value is blank |
| Forms.AppendInRuleOrder | controllers/bookController.js:94-103 | appending the errors of a later rule keeps the list in rule order |
| Forms.ConcatInFieldOrder | controllers/authorController.js:48-70 | concatenating the outputs of rules for four fields in rule order keeps the errors grouped by field |
| Forms.CastAll | controllers/bookController.js:108 | a genre list casts exactly when every entry is canonical, and each entry is the text of its id |
| Forms.CastGenreList | controllers/bookController.js:108 | the genre list of the built book is empty when any submitted entry fails to cast, and otherwise holds exactly the ids whose text was submitted |
| Forms.MarkSelected | controllers/bookController.js:180-193 | marking keeps length, order and records, and ticks a genre exactly when its id is among the book's genres |
| Forms.Unmarked | controllers/bookController.js:76-80 | the create form shows every genre unticked |
| Forms.MarkSelectedNested | controllers/bookController.js:180-193 | the nested loop ticks a genre exactly when an equal id occurs in the book's list, agreeing with `MarkSelected` |
| BookController.Index | controllers/bookController.js:9-36 | the home counts are the collection sizes, and the available count is at most the copy count |
| BookController.Submitted | controllers/bookController.js:87-92 | only the genre field is coerced, to its normalised list |
| BookController.SanitiseBook | controllers/bookController.js:104 | each submitted genre value is escaped, in place |
| BookController.BookErrors | controllers/bookController.js:94-103 | the error list is empty exactly when no required field is blank, and it is in declaration order |
| BookController.BookErrorsModes | controllers/bookController.js:210-223 | the update form's rules accept exactly the forms the create form's rules accept |
| BookController.BookErrorsExact | controllers/bookController.js:94-103 | every blank field has its own entry with its message, and nothing else is reported |
| BookController.BookMessagesDistinct | controllers/bookController.js:94-103 | the four book rules' messages are pairwise different, and the create and update forms word a message alike exactly when it is not the title's |
| BookController.TitleAndIsbnBlank | controllers/bookController.js:94-103 | a blank title and a blank ISBN give two entries, so validation does not stop at the first |
| BookController.ToBook | controllers/bookController.js:108 | the book record exists exactly when every reference casts, and it is the one the form denotes |
| BookController.EchoOf | controllers/bookController.js:108 | the unsaved document keeps the sanitised text fields, has an author exactly when the reference casts, lists the genres only when every entry casts, and is the denoted book when everything casts |
| BookController.InsertBook | controllers/bookController.js:128 | saving adds the book under a fresh id and keeps every other record |
| BookController.ReplaceBook | controllers/bookController.js:254 | updating overwrites only the book under the id and mints nothing |
| BookController.UpdatedBook | controllers/bookController.js:226-233 | the written record takes title, summary and ISBN from the form; a casting author reference replaces the stored author and one that does not cast keeps it; a genre list that casts is written entry for entry and one that does not becomes empty; a fully casting form writes the book it denotes |
| BookController.BookDetail | controllers/bookController.js:48-67 | a missing book is not found; otherwise the page shows the book and exactly its copies |
| BookController.BookCreateForm | controllers/bookController.js:70-83 | the empty form offers every author and every genre, none ticked |
| BookController.Redisplay | controllers/bookController.js:108-123 | the redisplay echoes the cast document and the errors, offers every stored genre once in id order, and ticks a genre exactly when every submitted genre casts and its text was submitted |
| BookController.RedisplayTicksEcho | controllers/bookController.js:112-116 | the redisplay ticks exactly the genres the echoed document lists |
| BookController.RedisplayFirstPass | controllers/bookController.js:239-250 | the page rendered on the loop's first pass has the redisplay's authors, form and errors, the first genre as the redisplay shows it, and every later genre unticked |
| BookController.BookCreatePost | controllers/bookController.js:86-134 | a blank field redisplays and keeps the store; a bad reference fails; otherwise the book is added under a fresh id and the browser is sent to it |
| BookController.BookUpdateForm | controllers/bookController.js:167-196 | a missing book is not found; otherwise the form ticks exactly the book's genres |
| BookController.BookUpdatePost | controllers/bookController.js:199-260 | a blank field redisplays and keeps the store; a missing book is unanswered; otherwise the book under the URL id is overwritten with the record the form casts to, nothing else changes, and the update never fails |
| BookController.BookUpdatePartialWrite | controllers/bookController.js:226-257 | a form whose author reference does not cast fails on create, but on update redirects to the book and keeps its stored author |
| BookController.BookUpdatePostAsWritten | controllers/bookController.js:237-251 | a failed validation keeps the store and sends no response exactly when no genre is stored, and otherwise sends the first pass's page; a valid form agrees with `BookUpdatePost` |
| BookController.FirstPassUnticksLater | controllers/bookController.js:239-250 | a submitted genre stored after another genre is ticked on the redisplay but unticked on the first pass's page |
| BookController.BookUpdateFirstPassFinding | controllers/bookController.js:239-250 | on a failed update, a submitted genre that is not the first stored one is ticked by the corrected handler and unticked by the handler as written |
| BookController.BookUpdateRedisplayFinding | controllers/bookController.js:239-250 | with no genre stored and a blank title, the as-written handler is unanswered while the corrected one redisplays with errors |
| BookController.BookDeleteForm | controllers/bookController.js:137-149 | a missing book sends the browser to the list; otherwise the page shows the book and exactly its copies |
| BookController.BookDeletePost | controllers/bookController.js:152-164 | the book is removed whether or not copies exist, and the blocked page is shown exactly when they do |
| BookController.BookDeleteLeavesDanglingCopy | controllers/bookController.js:156-162 | deleting a book with a copy answers blocked yet leaves the copy pointing at no book |
| BookController.BookDeletePostGuarded | controllers/bookController.js:156-162 | with the blocked page terminal, a book with copies is kept and one without is the only record removed |
| BookController.BookDeleteGuardedKeepsReferences | controllers/bookController.js:156-162 | the guarded delete keeps every copy pointing at a stored book |
| BookController.BookCreateThenDetail | controllers/bookController.js:128-131 | after a successful create, the new book's page shows the submitted values |
| BookController.BookUpdateThenDetail | controllers/bookController.js:226-233 | after a successful update, the same id shows the written record, which is the denoted book when every reference casts, and the ids and the next id are unchanged |
| AuthorController.NameErrors | controllers/authorController.js:49-55 | a name rule reports "missing" exactly when the name is blank and "not alphanumeric" exactly when the trimmed name is not letters and digits |
| AuthorController.DateErrors | controllers/authorController.js:63-66 | a date rule reports an error exactly when the value is non-empty and not an ISO 8601 date |
| AuthorController.AuthorErrors | controllers/authorController.js:48-70 | the author form has no errors exactly when both names are alphanumeric after trimming and each date is empty or ISO 8601 |
| AuthorController.AuthorErrorsInFieldOrder | controllers/authorController.js:48-70 | the errors come grouped by field in declaration order: first name, family name, date of birth, date of death |
| AuthorController.FirstNameErrors | controllers/authorController.js:49-55 | the first-name messages appear exactly on a blank or non-alphanumeric first name |
| AuthorController.FamilyNameErrors | controllers/authorController.js:56-62 | the family-name messages, including the "Gamily" spelling, appear exactly on a blank or non-alphanumeric family name |
| AuthorController.DateFieldErrors | controllers/authorController.js:63-70 | each date message appears exactly when that date is given and is not ISO 8601 |
| AuthorController.InOwnPart | controllers/authorController.js:48-70 | an error is found in the part of its own rule |
| AuthorController.BlankFirstNameTwoErrors | controllers/authorController.js:49-55 | a blank first name is reported both as missing and as not alphanumeric |
| AuthorController.CastDate | controllers/authorController.js:63-70 | an empty date is stored as absent and any other as `iso` converts it, so a date the rule accepts is stored exactly when it was given |
| AuthorController.SanitiseAuthor | controllers/authorController.js:49-62 | the echoed names are trimmed and escaped, empty exactly when blank and unchanged by escaping when accepted; the dates are echoed as submitted |
| AuthorController.ToAuthor | controllers/authorController.js:82 | an accepted form stores the trimmed names and the dates converted by `iso`, empty dates as absent |
| AuthorController.InsertAuthor | controllers/authorController.js:83 | saving adds the author under a fresh id and keeps every other record |
| AuthorController.SaveAuthor | models/author.js:6-7 | saving fails exactly when a name is empty or over 100 characters; otherwise the author is added |
| AuthorController.ReplaceAuthor | controllers/authorController.js:184-192 | updating overwrites only the author under the id and mints nothing |
| AuthorController.AuthorDetail | controllers/authorController.js:22-40 | a missing author is not found; otherwise the page shows the author and exactly their books |
| AuthorController.AuthorCreatePost | controllers/authorController.js:71-88 | a rule failure redisplays with the sanitised values and keeps the store; an over-long name fails; otherwise the author is added under a fresh id |
| AuthorController.AuthorDeleteForm | controllers/authorController.js:92-107 | a missing author sends the browser to the list; otherwise the page shows the author and exactly their books |
| AuthorController.AuthorDeletePost | controllers/authorController.js:110-130 | the delete is blocked, with the store unchanged, exactly while some book has the author; otherwise only that author is removed |
| AuthorController.AuthorDeleteRetryBlocked | controllers/authorController.js:115-121 | retrying a blocked delete stays blocked with the same books |
| AuthorController.AuthorDeleteKeepsReferences | controllers/authorController.js:122-126 | the guarded delete keeps every book pointing at a stored author |
| AuthorController.AuthorUpdateFormAsWritten | controllers/authorController.js:133-144 | a missing author leaves the request unanswered; otherwise the form shows the author |
| AuthorController.AuthorUpdateForm | controllers/authorController.js:136-141 | a missing author is not found; otherwise the form shows the author |
| AuthorController.AuthorUpdateFormFinding | controllers/authorController.js:136-140 | on a missing author the as-written form is unanswered and the corrected one is not found |
| AuthorController.AuthorUpdatePost | controllers/authorController.js:147-195 | a rule failure redisplays and keeps the store; a missing author is unanswered; otherwise only the author under the URL id changes |
| AuthorController.AuthorCreateThenDetail | controllers/authorController.js:82-86 | after a successful create, the new author's page shows the trimmed names and converted dates |
| AuthorController.AuthorUpdateIdempotent | controllers/authorController.js:172-192 | submitting the same update twice is the same as submitting it once |
| AuthorController.AuthorUpdateSkipsLengthBound | controllers/authorController.js:184-192 | an update stores a 101-character first name that create would reject |
| GenreController.Named | controllers/genreController.js:61 | the genres named `name` are exactly the stored genres with that exact name |
| GenreController.InsertGenre | controllers/genreController.js:66 | saving adds the genre under a fresh id and changes no other collection |
| GenreController.GenreDetail | controllers/genreController.js:17-41 | a missing genre is not found; otherwise the page shows the genre and exactly the books that list it |
| GenreController.GenreCreatePost | controllers/genreController.js:49-74 | a blank name redisplays with its error; an existing genre of that name is reused without a write; otherwise exactly one genre is inserted |
| GenreController.GenreCreateNamedCount | controllers/genreController.js:61-71 | after a create the name exists, and a new name exists exactly once |
| GenreController.GenreCreateIdempotent | controllers/genreController.js:61-71 | creating the same name again stores nothing and leads to the same genre |
| GenreController.GenreCreateSameGenreIff | controllers/genreController.js:50 | two submissions name the same genre exactly when their trimmed names are equal |
| GenreController.GenreDeleteForm | controllers/genreController.js:77-89 | a missing genre sends the browser to the list; otherwise the page shows the genre and exactly its books |
| GenreController.GenreDeletePost | controllers/genreController.js:92-107 | the delete is blocked, with the store unchanged, exactly while some book lists the genre; otherwise only that genre is removed |
| GenreController.GenreDeleteKeepsReferences | controllers/genreController.js:97-103 | the guarded delete keeps every listed genre stored |
| GenreController.GenreUpdateFormAsWritten | controllers/genreController.js:110-121 | a missing genre leaves the request unanswered; otherwise the form shows the genre |
| GenreController.GenreUpdateForm | controllers/genreController.js:113-118 | a missing genre is not found; otherwise the form shows the genre |
| GenreController.GenreUpdateFormFinding | controllers/genreController.js:113-117 | on a missing genre the as-written form is unanswered and the corrected one is not found |
| GenreController.GenreUpdatePost | controllers/genreController.js:124-139 | a blank name redisplays without errors and keeps the store; a missing genre is unanswered; otherwise only the genre under the URL id changes |

## Left out

- The list pages (`book_list`, `author_list`, `genre_list`) are not modelled: they fetch and render with no decision to make.
- The create-form pages for authors and genres are not modelled: they render a fixed view.
- The delete pages for a missing record redirect and then also render (bookController.js:143-146, authorController.js:97-100, genreController.js:83-86). The model keeps the redirect, which is the response sent; the later render's error is not modelled.
- With one or more genres stored, the update redisplay renders on every pass of its loop. `RedisplayFirstPass` is the first render, which is the response sent; the errors the later renders raise are not modelled.
- BookController.BookDeletePost: after the blocked page is sent, the removal still runs and its callback's redirect (bookController.js:161) throws "headers already sent" outside any handler; the outcome records the blocked page that was sent and the removal, and that later error is not modelled.
- Errors raised by the store itself (connection failures, write errors) are not modelled. Neither are the error handlers they reach. Some handlers call a `next` they do not declare: in `author_delete_post` a failed remove throws at authorController.js:124, before its redirect, so no response is sent.
- Mongoose details are abstracted: `populate`, projections, ObjectId equality, and casting of URL ids. Ids are natural numbers, and a form reference casts when it is an id's decimal text.
- Concurrent lookups (`Promise.all`, `objPromiseAll`, `async.parallel`) are read from one store snapshot. The race between a delete's check and its removal is concurrency and is not modelled.
- `iso` and `fmt` are parameters: the ISO 8601 grammar, `toDate` and Luxon's `DATE_MED` formatting are not modelled.
- `formated_date` (models/author.js:29-33) is not modelled: it is Luxon's `toISODate` only.
- The Book, Genre and BookInstance model files are not part of this model; their fields are taken from how the controllers use them.
- The echoed author form keeps dates as submitted text; the converted `Date` values are not echoed.
- AuthorController.AuthorUpdatePost: a request that leaves a date field out altogether keeps the stored date, because the update writes only the paths the built document has. The model reads a left-out field as empty, which stores no date.
- AuthorModel.Dates: its contract is stated by `DatesAbsentIff` and `DatesWithBirth` rather than on the function, because the function only formats.

## Findings

| source | as written | input that shows it | evidently intended | confidence | as-written member | corrected member |
|---|---|---|---|---|---|---|
| controllers/bookController.js:156-162 | the blocked page is rendered without `return`, so `findByIdAndRemove` still runs, and its callback's redirect then throws because the response was already sent | delete a book that has one copy | refuse the delete while copies exist, as the author and genre handlers do | not executed | BookController.BookDeletePost | BookController.BookDeletePostGuarded |
| controllers/authorController.js:133-140 | the handler has no `next` parameter, so the 404 path throws a reference error, the catch handler throws again, and no response is sent | open the update form of an author id that is not stored | answer 404 "Author not found" | not executed | AuthorController.AuthorUpdateFormAsWritten | AuthorController.AuthorUpdateForm |
| controllers/genreController.js:110-117 | the handler has no `next` parameter, so the 404 path throws a reference error, the catch handler throws again, and no response is sent | open the update form of a genre id that is not stored | answer 404 "Genre not found" | not executed | GenreController.GenreUpdateFormAsWritten | GenreController.GenreUpdateForm |
| controllers/bookController.js:239-250 | the redisplay is rendered inside the loop over stored genres: with none stored nothing is sent, and otherwise the first pass's page is sent before any later genre is ticked | submit a book update with a blank title when no genre is stored, or with a blank title and the second stored genre ticked | render the redisplay once, after the loop | not executed | BookController.BookUpdatePostAsWritten | BookController.BookUpdatePost |

=== FILE: author_controller.dfy ===
/**
 * The author pages: detail, create and update submissions with their name
 * and date rules, the update form, and the delete page and submission.
 */
module AuthorController {
  import opened Wrappers
  import opened Ids
  import opened Store
  import opened Text
  import opened Forms
  import opened Responses
  import opened AuthorModel

  /** The raw request body of an author form; a field submitted empty arrives as "". */
  datatype AuthorRequest = AuthorRequest(firstName: string, familyName: string, dateOfBirth: string, dateOfDeath: string)

  /** The author form page: the echoed values, the id when updating, and the errors. */
  datatype AuthorFormView = AuthorFormView(author: AuthorRequest, id: Option<Id>, errors: seq<FieldError>)

  /** An author with the books written by them, for the detail and delete pages. */
  datatype AuthorPageView = AuthorPageView(id: Id, author: Author, books: seq<Id>)

  /** The update form for a stored author. */
  datatype AuthorEditView = AuthorEditView(id: Id, author: Author)

  const FirstNameMissing: string := "First name must be specified"
  const FirstNameNotAlphanumeric: string := "First name has non-alphanumeric characters"
  const FamilyNameMissing: string := "Family name must be specified"
  /** The family-name message as the rule spells it. */
  const FamilyNameNotAlphanumeric: string := "Gamily name has non-alphanumeric characters"
  const BadDateOfBirth: string := "Invalid date of birth"
  const BadDateOfDeath: string := "Invalid date of death"

  /**
   * A name rule: trim, require a value, escape, then require letters and
   * digits only. Both checks run, so a blank name fails both.
   */
  function NameErrors(field: Field, value: string, missing: string, notAlnum: string): (r: seq<FieldError>)
    requires missing != notAlnum
    ensures FieldError(field, missing) in r <==> IsBlank(value)
    ensures FieldError(field, notAlnum) in r <==> !IsAlphanumeric(Trim(value))
    ensures forall e :: e in r ==> e == FieldError(field, missing) || e == FieldError(field, notAlnum)
    ensures forall e :: e in r ==> e.field == field
    ensures |r| <= 2
  {
    AlphanumericAfterEscape(Trim(value));
    Required(field, value, missing)
    + (if IsAlphanumeric(Sanitise(value)) then [] else [FieldError(field, notAlnum)])
  }

  /**
   * An optional date rule: a falsy (empty) value is skipped; otherwise it
   * must be an ISO 8601 date, as judged by `iso`.
   */
  function DateErrors(field: Field, value: string, iso: string -> Option<Date>, bad: string): (r: seq<FieldError>)
    ensures r == [] <==> value == "" || iso(value).Some?
    ensures forall e :: e in r ==> e == FieldError(field, bad)
    ensures |r| <= 1
  {
    if value == "" || iso(value).Some? then [] else [FieldError(field, bad)]
  }

  /**
   * The optional date as stored: none when left empty, else the converted
   * date. A date the rule accepts is stored exactly when it was given.
   */
  function CastDate(value: string, iso: string -> Option<Date>): (r: Option<Date>)
    ensures value == "" ==> r.None?
    ensures value != "" ==> r == iso(value)
    ensures forall f: Field, bad: string :: DateErrors(f, value, iso, bad) == [] ==> (r.Some? <==> value != "")
  {
    if value == "" then None else iso(value)
  }

  /** What the author rules accept: alphanumeric names after trimming, and empty or ISO 8601 dates. */
  predicate Acceptable(q: AuthorRequest, iso: string -> Option<Date>) {
    && IsAlphanumeric(Trim(q.firstName)) && IsAlphanumeric(Trim(q.familyName))
    && (q.dateOfBirth == "" || iso(q.dateOfBirth).Some?)
    && (q.dateOfDeath == "" || iso(q.dateOfDeath).Some?)
  }

  /** The four author rules, run in order without stopping at a failure. */
  function AuthorErrors(q: AuthorRequest, iso: string -> Option<Date>): (r: seq<FieldError>)
    ensures r == [] <==> Acceptable(q, iso)
  {
    NameErrors(FirstName, q.firstName, FirstNameMissing, FirstNameNotAlphanumeric)
    + NameErrors(FamilyName, q.familyName, FamilyNameMissing, FamilyNameNotAlphanumeric)
    + DateErrors(DateOfBirth, q.dateOfBirth, iso, BadDateOfBirth)
    + DateErrors(DateOfDeath, q.dateOfDeath, iso, BadDateOfDeath)
  }

  /**
   * The rules run in declaration order, so the errors come grouped by
   * field: first name, family name, date of birth, date of death.
   */
  lemma AuthorErrorsInFieldOrder(q: AuthorRequest, iso: string -> Option<Date>)
    ensures InFieldOrder(AuthorErrors(q, iso))
    ensures forall e :: e in AuthorErrors(q, iso) ==> Rank(FirstName) <= Rank(e.field) <= Rank(DateOfDeath)
  {
    var first, family, birth, death := AuthorErrorsParts(q, iso);
    ConcatAuthorFields(AuthorErrors(q, iso), first, family, birth, death);
  }

  /** The four rule outputs `AuthorErrors` concatenates, in order. */
  lemma AuthorErrorsParts(q: AuthorRequest, iso: string -> Option<Date>)
    returns (first: seq<FieldError>, family: seq<FieldError>, birth: seq<FieldError>, death: seq<FieldError>)
    ensures first == NameErrors(FirstName, q.firstName, FirstNameMissing, FirstNameNotAlphanumeric)
    ensures family == NameErrors(FamilyName, q.familyName, FamilyNameMissing, FamilyNameNotAlphanumeric)
    ensures birth == DateErrors(DateOfBirth, q.dateOfBirth, iso, BadDateOfBirth)
    ensures death == DateErrors(DateOfDeath, q.dateOfDeath, iso, BadDateOfDeath)
    ensures AuthorErrors(q, iso) == first + family + birth + death
  {
    first := NameErrors(FirstName, q.firstName, FirstNameMissing, FirstNameNotAlphanumeric);
    family := NameErrors(FamilyName, q.familyName, FamilyNameMissing, FamilyNameNotAlphanumeric);
    birth := DateErrors(DateOfBirth, q.dateOfBirth, iso, BadDateOfBirth);
    death := DateErrors(DateOfDeath, q.dateOfDeath, iso, BadDateOfDeath);
  }

  /** The first-name rule reports a blank name and a non-alphanumeric name, each with its message. */
  lemma FirstNameErrors(q: AuthorRequest, iso: string -> Option<Date>)
    ensures FieldError(FirstName, FirstNameMissing) in AuthorErrors(q, iso) <==> IsBlank(q.firstName)
    ensures FieldError(FirstName, FirstNameNotAlphanumeric) in AuthorErrors(q, iso) <==> !IsAlphanumeric(Trim(q.firstName))
  {
    var first, family, birth, death := AuthorErrorsParts(q, iso);
    InOwnPart(FieldError(FirstName, FirstNameMissing), first, family, birth, death);
    InOwnPart(FieldError(FirstName, FirstNameNotAlphanumeric), first, family, birth, death);
  }

  /** The family-name rule reports a blank name and a non-alphanumeric name, each with its message. */
  lemma FamilyNameErrors(q: AuthorRequest, iso: string -> Option<Date>)
    ensures FieldError(FamilyName, FamilyNameMissing) in AuthorErrors(q, iso) <==> IsBlank(q.familyName)
    ensures FieldError(FamilyName, FamilyNameNotAlphanumeric) in AuthorErrors(q, iso) <==> !IsAlphanumeric(Trim(q.familyName))
  {
    var first, family, birth, death := AuthorErrorsParts(q, iso);
    InOwnPart(FieldError(FamilyName, FamilyNameMissing), first, family, birth, death);
    InOwnPart(FieldError(FamilyName, FamilyNameNotAlphanumeric), first, family, birth, death);
  }

  /** A date is reported exactly when it is non-empty and not an ISO 8601 date. */
  lemma DateFieldErrors(q: AuthorRequest, iso: string -> Option<Date>)
    ensures FieldError(DateOfBirth, BadDateOfBirth) in AuthorErrors(q, iso) <==> q.dateOfBirth != "" && iso(q.dateOfBirth).None?
    ensures FieldError(DateOfDeath, BadDateOfDeath) in AuthorErrors(q, iso) <==> q.dateOfDeath != "" && iso(q.dateOfDeath).None?
  {
    var first, family, birth, death := AuthorErrorsParts(q, iso);
    InOwnPart(FieldError(DateOfBirth, BadDateOfBirth), first, family, birth, death);
    InOwnPart(FieldError(DateOfDeath, BadDateOfDeath), first, family, birth, death);
  }

  /** Each rule's errors carry its own field, so an error is found in the part of its field. */
  lemma InOwnPart(x: FieldError, first: seq<FieldError>, family: seq<FieldError>, birth: seq<FieldError>, death: seq<FieldError>)
    requires forall e :: e in first ==> e.field == FirstName
    requires forall e :: e in family ==> e.field == FamilyName
    requires forall e :: e in birth ==> e.field == DateOfBirth
    requires forall e :: e in death ==> e.field == DateOfDeath
    ensures x in first + family + birth + death <==>
      || (x.field == FirstName && x in first) || (x.field == FamilyName && x in family)
      || (x.field == DateOfBirth && x in birth) || (x.field == DateOfDeath && x in death)
  {
  }

  /** A blank first name is reported twice: once as missing, once as not alphanumeric. */
  lemma BlankFirstNameTwoErrors(q: AuthorRequest, iso: string -> Option<Date>)
    requires IsBlank(q.firstName)
    ensures FieldError(FirstName, FirstNameMissing) in AuthorErrors(q, iso)
    ensures FieldError(FirstName, FirstNameNotAlphanumeric) in AuthorErrors(q, iso)
  {
    FirstNameErrors(q, iso);
  }

  /**
   * The body after the sanitisers: names trimmed and escaped, dates as
   * submitted. A blank name echoes as empty, and a name the rules accept
   * echoes as trimmed.
   */
  function SanitiseAuthor(q: AuthorRequest): (r: AuthorRequest)
    ensures r.firstName == Escape(Trim(q.firstName)) && r.familyName == Escape(Trim(q.familyName))
    ensures r.dateOfBirth == q.dateOfBirth && r.dateOfDeath == q.dateOfDeath
    ensures (r.firstName == "" <==> IsBlank(q.firstName)) && (r.familyName == "" <==> IsBlank(q.familyName))
    ensures IsAlphanumeric(Trim(q.firstName)) ==> r.firstName == Trim(q.firstName)
    ensures IsAlphanumeric(Trim(q.familyName)) ==> r.familyName == Trim(q.familyName)
  {
    assert IsAlphanumeric(Trim(q.firstName)) ==> Escape(Trim(q.firstName)) == Trim(q.firstName) by {
      if IsAlphanumeric(Trim(q.firstName)) { EscapeAlnumIdentity(Trim(q.firstName)); }
    }
    assert IsAlphanumeric(Trim(q.familyName)) ==> Escape(Trim(q.familyName)) == Trim(q.familyName) by {
      if IsAlphanumeric(Trim(q.familyName)) { EscapeAlnumIdentity(Trim(q.familyName)); }
    }
    AuthorRequest(Sanitise(q.firstName), Sanitise(q.familyName), q.dateOfBirth, q.dateOfDeath)
  }

  /** The record an accepted form stores; escaping leaves accepted names as trimmed. */
  function ToAuthor(q: AuthorRequest, iso: string -> Option<Date>): (a: Author)
    requires Acceptable(q, iso)
    ensures a.firstName == Trim(q.firstName) && a.familyName == Trim(q.familyName)
    ensures a.dateOfBirth.None? <==> q.dateOfBirth == ""
    ensures a.dateOfDeath.None? <==> q.dateOfDeath == ""
    ensures a.dateOfBirth.Some? ==> iso(q.dateOfBirth) == a.dateOfBirth
    ensures a.dateOfDeath.Some? ==> iso(q.dateOfDeath) == a.dateOfDeath
  {
    EscapeAlnumIdentity(Trim(q.firstName));
    EscapeAlnumIdentity(Trim(q.familyName));
    Author(Sanitise(q.firstName), Sanitise(q.familyName),
      CastDate(q.dateOfBirth, iso), CastDate(q.dateOfDeath, iso))
  }

  /** `insert`: stores `a` under the freshly minted id. */
  function InsertAuthor(s: Store, a: Author): (r: (Store, Id))
    requires Valid(s)
    ensures Valid(r.0) && AuthorAdded(s, r.0, r.1, a)
  {
    var id := FreshId(s);
    (s.(authors := s.authors[id := a], next := s.next + 1), id)
  }

  /**
   * `save`: the schema check, then the insert. A name over the length
   * bound is a validation error passed to the error handler.
   */
  function SaveAuthor(s: Store, a: Author): (r: Response<AuthorFormView>)
    requires Valid(s)
    ensures Valid(r.store)
    ensures r.outcome.Failed? <==> !SchemaValid(a)
    ensures r.outcome.Failed? ==> r.store == s
    ensures !r.outcome.Failed? ==>
      r.outcome.Redirect? && r.outcome.target.AuthorPage? && AuthorAdded(s, r.store, r.outcome.target.id, a)
  {
    if !SchemaValid(a) then Response(s, Failed)
    else
      var (t, id) := InsertAuthor(s, a);
      Response(t, Redirect(AuthorPage(id)))
  }

  /** `updateById`: overwrites the stored author `id` with `a`. */
  function ReplaceAuthor(s: Store, id: Id, a: Author): (r: Store)
    requires Valid(s) && id in s.authors
    ensures Valid(r) && OnlyAuthorsChange(s, r)
    ensures r.authors == s.authors[id := a] && r.authors.Keys == s.authors.Keys
  {
    s.(authors := s.authors[id := a])
  }

  /** Detail page: the author and their books, or not found. */
  function AuthorDetail(s: Store, id: Id): (r: Outcome<AuthorPageView>)
    requires Valid(s)
    ensures r.NotFound? <==> id !in s.authors
    ensures r.NotFound? || r.Render?
    ensures r.Render? ==> r.view.id == id && r.view.author == s.authors[id]
    ensures r.Render? ==> forall b :: b in r.view.books <==> b in s.books && s.books[b].author == id
  {
    if id !in s.authors then NotFound
    else Render(AuthorPageView(id, s.authors[id], BooksByAuthor(s, id)))
  }

  /**
   * Create submission. A rejected form is redisplayed and nothing is
   * stored; an accepted one is saved under a freshly minted id, where the
   * save's schema check rejects a name longer than 100 characters.
   */
  function AuthorCreatePost(s: Store, q: AuthorRequest, iso: string -> Option<Date>): (r: Response<AuthorFormView>)
    requires Valid(s)
    ensures Valid(r.store)
    ensures r.outcome.Render? || r.outcome.Failed? || r.outcome.Redirect?
    ensures r.outcome.Render? <==> !Acceptable(q, iso)
    ensures r.outcome.Render? ==>
      && r.store == s
      && r.outcome.view == AuthorFormView(SanitiseAuthor(q), None, AuthorErrors(q, iso))
    ensures r.outcome.Failed? <==>
      Acceptable(q, iso) && (|Trim(q.firstName)| > MaxNameLength || |Trim(q.familyName)| > MaxNameLength)
    ensures r.outcome.Failed? ==> r.store == s
    ensures r.outcome.Redirect? ==> r.outcome.target.AuthorPage?
    ensures r.outcome.Redirect? && r.outcome.target.AuthorPage? ==>
      && AuthorAdded(s, r.store, r.outcome.target.id, ToAuthor(q, iso))
      && SchemaValid(ToAuthor(q, iso))
  {
    var errors := AuthorErrors(q, iso);
    if errors != [] then
      Response(s, Render(AuthorFormView(SanitiseAuthor(q), None, errors)))
    else
      SaveAuthor(s, ToAuthor(q, iso))
  }

  /** Delete page: the author and their books; a missing author sends the browser to the list. */
  function AuthorDeleteForm(s: Store, id: Id): (r: Outcome<AuthorPageView>)
    requires Valid(s)
    ensures r == Redirect(AuthorListPage) <==> id !in s.authors
    ensures r.Redirect? || r.Render?
    ensures r.Render? ==>
      && r.view.author == s.authors[id]
      && forall b :: b in r.view.books <==> b in s.books && s.books[b].author == id
  {
    if id !in s.authors then Redirect(AuthorListPage)
    else Render(AuthorPageView(id, s.authors[id], BooksByAuthor(s, id)))
  }

  /**
   * Delete submission. While any book names the author, the delete page
   * is redisplayed with those books and the store is untouched; otherwise
   * only that author is removed.
   */
  function AuthorDeletePost(s: Store, id: Id): (r: Response<AuthorPageView>)
    requires Valid(s)
    ensures Valid(r.store)
    ensures r.outcome.Blocked? <==> exists b :: b in s.books && s.books[b].author == id
    ensures r.outcome.Blocked? ==>
      && r.store == s
      && forall b :: b in r.outcome.dependents <==> b in s.books && s.books[b].author == id
    ensures !r.outcome.Blocked? ==>
      && r.outcome == Redirect(AuthorListPage)
      && r.store.authors == s.authors - {id}
      && OnlyAuthorsChange(s, r.store)
  {
    var books := BooksByAuthor(s, id);
    assert |books| > 0 ==> books[0] in books;
    if |books| > 0 then Response(s, Blocked(books))
    else Response(s.(authors := s.authors - {id}), Redirect(AuthorListPage))
  }

  /** A blocked delete changes nothing, so retrying it is blocked again by the same books. */
  lemma AuthorDeleteRetryBlocked(s: Store, id: Id)
    requires Valid(s)
    requires AuthorDeletePost(s, id).outcome.Blocked?
    ensures AuthorDeletePost(AuthorDeletePost(s, id).store, id) == AuthorDeletePost(s, id)
  {
  }

  /** Removing an author only when no book names it keeps every book's author stored. */
  lemma AuthorDeleteKeepsReferences(s: Store, id: Id)
    requires Valid(s) && Referential(s)
    ensures Referential(AuthorDeletePost(s, id).store)
  {
    var r := AuthorDeletePost(s, id);
    if !r.outcome.Blocked? {
      forall b | b in r.store.books ensures r.store.books[b].author in r.store.authors {
        assert s.books[b].author != id;
      }
    }
  }

  /**
   * Update form as the handler is written: it is declared without `next`,
   * so a missing author raises a reference error inside the promise chain,
   * the catch handler raises it again, and no response is sent.
   */
  function AuthorUpdateFormAsWritten(s: Store, id: Id): (r: Outcome<AuthorEditView>)
    ensures r.Unanswered? <==> id !in s.authors
    ensures r.Render? <==> id in s.authors
    ensures r.Render? ==> r.view == AuthorEditView(id, s.authors[id])
  {
    if id !in s.authors then Unanswered
    else Render(AuthorEditView(id, s.authors[id]))
  }

  /** Update form with the 404 the handler builds actually delivered. */
  function AuthorUpdateForm(s: Store, id: Id): (r: Outcome<AuthorEditView>)
    ensures r.NotFound? <==> id !in s.authors
    ensures r.Render? <==> id in s.authors
    ensures r.Render? ==> r.view == AuthorEditView(id, s.authors[id])
  {
    if id !in s.authors then NotFound
    else Render(AuthorEditView(id, s.authors[id]))
  }

  /** The two update forms differ exactly on a missing author, where only the corrected one answers 404. */
  lemma AuthorUpdateFormFinding(s: Store, id: Id)
    requires id !in s.authors
    ensures AuthorUpdateFormAsWritten(s, id) == Unanswered
    ensures AuthorUpdateForm(s, id) == NotFound
  {
  }

  /**
   * Update submission. The record is rebuilt with the id from the URL
   * reattached, so a successful update overwrites that id and mints none.
   * `findByIdAndUpdate` runs no schema validators, so the 100-character
   * bound is not checked here. A missing author yields null, and reading
   * its `url` throws outside any handler.
   */
  function AuthorUpdatePost(s: Store, id: Id, q: AuthorRequest, iso: string -> Option<Date>): (r: Response<AuthorFormView>)
    requires Valid(s)
    ensures Valid(r.store)
    ensures r.outcome.Render? || r.outcome.Unanswered? || r.outcome.Redirect?
    ensures r.outcome.Render? <==> !Acceptable(q, iso)
    ensures r.outcome.Render? ==>
      && r.store == s
      && r.outcome.view == AuthorFormView(SanitiseAuthor(q), Some(id), AuthorErrors(q, iso))
    ensures r.outcome.Unanswered? <==> Acceptable(q, iso) && id !in s.authors
    ensures r.outcome.Unanswered? ==> r.store == s
    ensures r.outcome.Redirect? ==>
      && r.outcome.target == AuthorPage(id)
      && id in s.authors
      && r.store.authors == s.authors[id := ToAuthor(q, iso)]
      && OnlyAuthorsChange(s, r.store)
  {
    var errors := AuthorErrors(q, iso);
    if errors != [] then
      Response(s, Render(AuthorFormView(SanitiseAuthor(q), Some(id), errors)))
    else if id !in s.authors then
      Response(s, Unanswered)
    else
      Response(ReplaceAuthor(s, id, ToAuthor(q, iso)), Redirect(AuthorPage(id)))
  }

  /** After a successful create, the detail page of the new id shows the submitted fields. */
  lemma AuthorCreateThenDetail(s: Store, q: AuthorRequest, iso: string -> Option<Date>)
    requires Valid(s)
    ensures var r := AuthorCreatePost(s, q, iso);
      r.outcome.Redirect? ==>
      var d := AuthorDetail(r.store, r.outcome.target.id);
      && d.Render?
      && d.view.author.firstName == Trim(q.firstName) && d.view.author.familyName == Trim(q.familyName)
      && d.view.author.dateOfBirth == CastDate(q.dateOfBirth, iso)
      && d.view.author.dateOfDeath == CastDate(q.dateOfDeath, iso)
  {
  }

  /** Updating twice with the same form is the same as updating once. */
  lemma AuthorUpdateIdempotent(s: Store, id: Id, q: AuthorRequest, iso: string -> Option<Date>)
    requires Valid(s)
    ensures var r := AuthorUpdatePost(s, id, q, iso);
      AuthorUpdatePost(r.store, id, q, iso) == r
  {
    if Acceptable(q, iso) && id in s.authors {
      var a := ToAuthor(q, iso);
      var t := ReplaceAuthor(s, id, a);
      assert AuthorUpdatePost(s, id, q, iso) == Response(t, Redirect(AuthorPage(id)));
      assert t.authors[id := a] == t.authors;
      assert ReplaceAuthor(t, id, a) == t;
    }
  }

  /**
   * Unlike create, update accepts a 101-character name and stores it,
   * leaving an author that the schema's bound would reject on save.
   */
  lemma AuthorUpdateSkipsLengthBound()
    ensures var long := seq(101, _ => 'a');
      var s := Store(map[0 := Author("Ann", "Lee", None, None)], map[], map[], map[], 1);
      var q := AuthorRequest(long, "Lee", "", "");
      var iso: string -> Option<Date> := (t: string) => None;
      && Valid(s)
      && AuthorUpdatePost(s, 0, q, iso).outcome == Redirect(AuthorPage(0))
      && !SchemaValid(AuthorUpdatePost(s, 0, q, iso).store.authors[0])
      && AuthorCreatePost(s, q, iso).outcome == Failed
  {
    var long := seq(101, _ => 'a');
    var iso: string -> Option<Date> := (t: string) => None;
    assert TrimmedAt(long, long, 0) by { assert long[0..101] == long; }
    TrimUnique(long, long, 0);
    assert TrimmedAt("Lee", "Lee", 0) by { assert "Lee"[0..3] == "Lee"; }
    TrimUnique("Lee", "Lee", 0);
    assert IsAlphanumeric(Trim(long));
    assert IsAlphanumeric(Trim("Lee"));
  }
}

=== FILE: author_model.dfy ===
/**
 * The Author schema's bounds and its computed (virtual) fields: the display
 * name, the lifespan text and the detail-page URL. None is stored.
 */
module AuthorModel {
  import opened Wrappers
  import opened Ids
  import opened Store

  /** `maxLength` of `first_name` and `family_name`. */
  const MaxNameLength: nat := 100

  /** The lifespan text of an author without a date of birth, leading space included. */
  const NoDates: string := " (No dates provided)"

  const AuthorPathPrefix: string := "/catalog/author/"

  /** What saving an author checks: both names present and at most 100 characters. */
  predicate SchemaValid(a: Author) {
    && 1 <= |a.firstName| <= MaxNameLength
    && 1 <= |a.familyName| <= MaxNameLength
  }

  /** The `name` virtual: family name, a comma and a space, then the first name. */
  function Name(a: Author): (r: string)
    ensures |r| == |a.familyName| + 2 + |a.firstName|
    ensures r[..|a.familyName|] == a.familyName && r[|a.familyName| + 2..] == a.firstName
    ensures r[|a.familyName|] == ',' && r[|a.familyName| + 1] == ' '
  {
    a.familyName + ", " + a.firstName
  }

  /**
   * The display name identifies the author's names whenever the family
   * names carry no comma (validated names are alphanumeric).
   */
  lemma NameInjective(a: Author, b: Author)
    requires ',' !in a.familyName && ',' !in b.familyName
    ensures Name(a) == Name(b) <==> a.familyName == b.familyName && a.firstName == b.firstName
  {
  }

  /**
   * The `dates` virtual. `fmt` stands for the locale's medium date format;
   * a missing date of death leaves the part after the dash empty.
   */
  function Dates(a: Author, fmt: Date -> string): string {
    match a.dateOfBirth
    case None => NoDates
    case Some(dob) =>
      var dod := if a.dateOfDeath.Some? then fmt(a.dateOfDeath.value) else "";
      " (" + fmt(dob) + " - " + dod + ")"
  }

  /**
   * Whatever the date format, the lifespan reads "(No dates provided)"
   * exactly when there is no date of birth; a date of death alone is not shown.
   */
  lemma DatesAbsentIff(a: Author, fmt: Date -> string)
    ensures Dates(a, fmt) == NoDates <==> a.dateOfBirth.None?
  {
    if a.dateOfBirth.Some? {
      var d := Dates(a, fmt);
      var k := 2 + |fmt(a.dateOfBirth.value)| + 1;
      assert d[k] == '-';
      assert '-' !in NoDates;
    }
  }

  /**
   * With a date of birth the lifespan is " (", the formatted birth date,
   * " - ", the formatted death date (empty while alive) and ")".
   */
  lemma DatesWithBirth(a: Author, fmt: Date -> string)
    requires a.dateOfBirth.Some?
    ensures var birth := fmt(a.dateOfBirth.value);
      var death := if a.dateOfDeath.None? then "" else fmt(a.dateOfDeath.value);
      && var d := Dates(a, fmt);
      && |d| == 6 + |birth| + |death|
      && d[..2] == " (" && d[2..2 + |birth|] == birth
      && d[2 + |birth|..5 + |birth|] == " - "
      && d[5 + |birth|..5 + |birth| + |death|] == death
      && d[|d| - 1] == ')'
  {
  }

  /** The `url` virtual: the author detail page path. */
  function Url(id: Id): (r: string)
    ensures |r| > |AuthorPathPrefix| && r[..|AuthorPathPrefix|] == AuthorPathPrefix
    ensures ParseId(r[|AuthorPathPrefix|..]) == Some(id)
  {
    ParseIdText(id);
    var r := AuthorPathPrefix + IdText(id);
    assert r[|AuthorPathPrefix|..] == IdText(id);
    r
  }

  /** Distinct authors have distinct detail pages. */
  lemma UrlInjective(a: Id, b: Id)
    ensures Url(a) == Url(b) <==> a == b
  {
  }
}

=== FILE: book_controller.dfy ===
/**
 * The book pages: the catalog home counts, book detail, the create and
 * update forms with their submissions, and the delete page and submission.
 */
module BookController {
  import opened Wrappers
  import opened Ids
  import opened Store
  import opened Text
  import opened Forms
  import opened Responses

  /** The record counts on the catalog home page. */
  datatype IndexCounts = IndexCounts(books: nat, instances: nat, available: nat, authors: nat, genres: nat)

  /**
   * The five independent counts of the home page, read from one store
   * snapshot. The `Available` count is a sub-count of all copies.
   */
  function Index(s: Store): (r: IndexCounts)
    ensures r.available <= r.instances
    ensures r.available == |AvailableInstances(s)| && r.instances == |s.instances|
    ensures r.books == |s.books| && r.authors == |s.authors| && r.genres == |s.genres|
  {
    SubsetCard(AvailableInstances(s), s.instances.Keys);
    IndexCounts(|s.books|, |s.instances|, |AvailableInstances(s)|, |s.authors|, |s.genres|)
  }

  /** The book form as submitted, with the genre field already coerced to a list. */
  datatype BookForm = BookForm(title: string, author: string, summary: string, isbn: string, genre: seq<string>)

  /** The raw request body of a book form submission. */
  datatype BookRequest = BookRequest(title: string, author: string, summary: string, isbn: string, genre: GenreField)

  /** The first middleware: coerce `genre` to a list. */
  function Submitted(q: BookRequest): (f: BookForm)
    ensures f.genre == Normalise(q.genre)
    ensures f.title == q.title && f.author == q.author && f.summary == q.summary && f.isbn == q.isbn
  {
    BookForm(q.title, q.author, q.summary, q.isbn, Normalise(q.genre))
  }

  /** The values the rules leave in the body: scalars trimmed and escaped, genre values escaped. */
  function SanitiseBook(f: BookForm): (e: BookForm)
    ensures |e.genre| == |f.genre| && forall k :: 0 <= k < |f.genre| ==> e.genre[k] == Escape(f.genre[k])
  {
    BookForm(Sanitise(f.title), Sanitise(f.author), Sanitise(f.summary), Sanitise(f.isbn),
      seq(|f.genre|, k requires 0 <= k < |f.genre| => Escape(f.genre[k])))
  }

  datatype Mode = Creating | Updating

  predicate IsBookField(field: Field) {
    field.Title? || field.AuthorRef? || field.Summary? || field.Isbn?
  }

  function BookValue(f: BookForm, field: Field): string {
    match field
    case Title => f.title
    case AuthorRef => f.author
    case Summary => f.summary
    case Isbn => f.isbn
    case _ => ""
  }

  /** The rule messages; only the title message differs, by a full stop, between create and update. */
  function BookMessage(field: Field, mode: Mode): string {
    match field
    case Title => if mode == Creating then "Title must not be empty" else "Title must not be empty."
    case AuthorRef => "Author must not be empty."
    case Summary => "Summary must not be empty."
    case _ => "ISBN must not be empty"
  }

  /**
   * Runs the four required-field rules without stopping at the first
   * failure; the list is empty exactly when no field is blank, and it is
   * in declaration order.
   */
  function BookErrors(f: BookForm, mode: Mode): (r: seq<FieldError>)
    ensures r == [] <==> !IsBlank(f.title) && !IsBlank(f.author) && !IsBlank(f.summary) && !IsBlank(f.isbn)
    ensures InRuleOrder(r)
  {
    var r1 := Required(Title, f.title, BookMessage(Title, mode));
    var r2 := Required(AuthorRef, f.author, BookMessage(AuthorRef, mode));
    var r3 := Required(Summary, f.summary, BookMessage(Summary, mode));
    var r4 := Required(Isbn, f.isbn, BookMessage(Isbn, mode));
    AppendInRuleOrder([], r1, Title);
    AppendInRuleOrder(r1, r2, AuthorRef);
    AppendInRuleOrder(r1 + r2, r3, Summary);
    AppendInRuleOrder(r1 + r2 + r3, r4, Isbn);
    r1 + r2 + r3 + r4
  }

  /**
   * The four book rules carry four different messages in either form, and
   * the create and update forms word them alike except for the title's
   * closing full stop.
   */
  lemma BookMessagesDistinct(mode: Mode)
    ensures BookMessage(Title, mode) != BookMessage(AuthorRef, mode)
    ensures BookMessage(Title, mode) != BookMessage(Summary, mode)
    ensures BookMessage(Title, mode) != BookMessage(Isbn, mode)
    ensures BookMessage(AuthorRef, mode) != BookMessage(Summary, mode)
    ensures BookMessage(AuthorRef, mode) != BookMessage(Isbn, mode)
    ensures BookMessage(Summary, mode) != BookMessage(Isbn, mode)
    ensures forall f :: IsBookField(f) ==> (BookMessage(f, Creating) == BookMessage(f, Updating) <==> f != Title)
  {
    assert BookMessage(Title, Creating)[0] == 'T' && BookMessage(AuthorRef, mode)[0] == 'A';
    assert BookMessage(Summary, mode)[0] == 'S' && BookMessage(Isbn, mode)[0] == 'I';
    assert |BookMessage(Title, Creating)| != |BookMessage(Title, Updating)|;
  }

  /**
   * All failures are collected: each blank field contributes its own
   * entry with its message, and nothing else is reported.
   */
  lemma BookErrorsExact(f: BookForm, mode: Mode)
    ensures forall e :: e in BookErrors(f, mode) ==>
      IsBookField(e.field) && IsBlank(BookValue(f, e.field)) && e.msg == BookMessage(e.field, mode)
    ensures forall field :: IsBookField(field) && IsBlank(BookValue(f, field)) ==>
      FieldError(field, BookMessage(field, mode)) in BookErrors(f, mode)
  {
    var r1 := Required(Title, f.title, BookMessage(Title, mode));
    var r2 := Required(AuthorRef, f.author, BookMessage(AuthorRef, mode));
    var r3 := Required(Summary, f.summary, BookMessage(Summary, mode));
    var r4 := Required(Isbn, f.isbn, BookMessage(Isbn, mode));
    var r := BookErrors(f, mode);
    assert r == r1 + r2 + r3 + r4;
    forall e | e in r
      ensures IsBookField(e.field) && IsBlank(BookValue(f, e.field)) && e.msg == BookMessage(e.field, mode)
    {
      assert e in r1 || e in r2 || e in r3 || e in r4;
    }
  }

  /** Submitting with both title and ISBN blank yields two distinct entries, not just the first. */
  lemma TitleAndIsbnBlank(f: BookForm, mode: Mode)
    requires IsBlank(f.title) && IsBlank(f.isbn) && !IsBlank(f.author) && !IsBlank(f.summary)
    ensures BookErrors(f, mode) == [FieldError(Title, BookMessage(Title, mode)), FieldError(Isbn, BookMessage(Isbn, mode))]
  {
  }

  /** The create and update rules fail on the same forms; only the title message differs. */
  lemma BookErrorsModes(f: BookForm)
    ensures BookErrors(f, Creating) == [] <==> BookErrors(f, Updating) == []
  {
  }

  /** `b` is the record the sanitised form `e` denotes once its references are cast. */
  predicate Denotes(b: Book, e: BookForm) {
    && b.title == e.title && b.summary == e.summary && b.isbn == e.isbn
    && e.author == IdText(b.author)
    && |b.genre| == |e.genre|
    && forall k :: 0 <= k < |e.genre| ==> e.genre[k] == IdText(b.genre[k])
  }

  /** Casts the author and genre references of a sanitised form; fails if one does not cast. */
  function ToBook(e: BookForm): (r: Option<Book>)
    ensures r.Some? <==> Canonical(e.author) && forall k :: 0 <= k < |e.genre| ==> Canonical(e.genre[k])
    ensures r.Some? ==> Denotes(r.value, e)
  {
    var author := ParseId(e.author);
    var genre := CastAll(e.genre);
    if author.None? || genre.None? then None
    else
      ParseIdIff(e.author, author.value);
      Some(Book(e.title, author.value, e.summary, e.isbn, genre.value))
  }

  /**
   * The unsaved book document a failed submission echoes back: the text
   * fields as sanitised, the author only when its reference casts, and the
   * genre list cast all or nothing.
   */
  datatype BookEcho = BookEcho(title: string, author: Option<Id>, summary: string, isbn: string, genre: seq<Id>)

  /**
   * The document built from a sanitised form: a reference that does not
   * cast leaves its path unset, and a genre list with an entry that does
   * not cast is left at the default empty list.
   */
  function EchoOf(e: BookForm): (b: BookEcho)
    ensures b.title == e.title && b.summary == e.summary && b.isbn == e.isbn
    ensures b.author.Some? <==> Canonical(e.author)
    ensures b.author.Some? ==> e.author == IdText(b.author.value)
    ensures CastAll(e.genre).None? ==> b.genre == []
    ensures CastAll(e.genre).Some? ==>
      |b.genre| == |e.genre| && forall k :: 0 <= k < |e.genre| ==> e.genre[k] == IdText(b.genre[k])
    ensures ToBook(e).Some? ==>
      var t := ToBook(e).value;
      b == BookEcho(t.title, Some(t.author), t.summary, t.isbn, t.genre)
  {
    var author := ParseId(e.author);
    assert author.Some? ==> e.author == IdText(author.value) by {
      if author.Some? { ParseIdIff(e.author, author.value); }
    }
    var b := BookEcho(e.title, author, e.summary, e.isbn, CastGenreList(e.genre));
    assert ToBook(e).Some? ==> b.genre == ToBook(e).value.genre by {
      if ToBook(e).Some? {
        var t := ToBook(e).value;
        assert |b.genre| == |t.genre|;
        forall k | 0 <= k < |t.genre| ensures b.genre[k] == t.genre[k] {
          IdTextInjective(b.genre[k], t.genre[k]);
        }
      }
    }
    b
  }

  /** The book form page: author choices, genre checkboxes, the echoed book and the errors. */
  datatype BookFormView = BookFormView(
    authors: seq<Id>,
    genres: seq<GenreOption>,
    book: Option<BookEcho>,
    id: Option<Id>,
    errors: seq<FieldError>)

  /** The update form for a stored book. */
  datatype BookEditView = BookEditView(id: Id, book: Book, authors: seq<Id>, genres: seq<GenreOption>)

  /** A book with its copies, for the detail and delete pages. */
  datatype BookPageView = BookPageView(id: Id, book: Book, instances: seq<Id>)

  /** The options offered are exactly the stored genres, each with its record. */
  predicate OffersAllGenres(opts: seq<GenreOption>, s: Store) {
    && (forall i :: 0 <= i < |opts| ==> opts[i].id in s.genres && s.genres[opts[i].id] == opts[i].genre)
    && (forall g :: g in s.genres ==> exists i :: 0 <= i < |opts| && opts[i].id == g)
    && (forall i, j :: 0 <= i < j < |opts| ==> opts[i].id < opts[j].id)
  }

  /** `insert`: stores `b` under the freshly minted id. */
  function InsertBook(s: Store, b: Book): (r: (Store, Id))
    requires Valid(s)
    ensures Valid(r.0) && BookAdded(s, r.0, r.1, b)
  {
    var id := FreshId(s);
    (s.(books := s.books[id := b], next := s.next + 1), id)
  }

  /** `updateById`: overwrites the stored book `id` with `b`. */
  function ReplaceBook(s: Store, id: Id, b: Book): (r: Store)
    requires Valid(s) && id in s.books
    ensures Valid(r) && OnlyBooksChange(s, r)
    ensures r.books == s.books[id := b] && r.books.Keys == s.books.Keys
  {
    s.(books := s.books[id := b])
  }

  /**
   * The record `findByIdAndUpdate` leaves under the id. The update
   * document holds only the paths that cast: an author reference that
   * does not cast is missing from it, so the stored author is kept, and a
   * genre list that does not cast is the default empty list. Nothing is
   * validated on this path.
   */
  function UpdatedBook(stored: Book, e: BookForm): (b: Book)
    ensures b.title == e.title && b.summary == e.summary && b.isbn == e.isbn
    ensures Canonical(e.author) ==> e.author == IdText(b.author)
    ensures !Canonical(e.author) ==> b.author == stored.author
    ensures CastAll(e.genre).Some? ==> |b.genre| == |e.genre| && forall k :: 0 <= k < |e.genre| ==> e.genre[k] == IdText(b.genre[k])
    ensures CastAll(e.genre).None? ==> b.genre == []
    ensures ToBook(e).Some? ==> b == ToBook(e).value
  {
    match ParseId(e.author)
    case Some(a) =>
      ParseIdIff(e.author, a);
      Book(e.title, a, e.summary, e.isbn, CastGenreList(e.genre))
    case None =>
      Book(e.title, stored.author, e.summary, e.isbn, CastGenreList(e.genre))
  }

  /** Detail page: the book and its copies, or not found. */
  function BookDetail(s: Store, id: Id): (r: Outcome<BookPageView>)
    requires Valid(s)
    ensures r.NotFound? <==> id !in s.books
    ensures r.NotFound? || r.Render?
    ensures r.Render? ==> r.view.id == id && r.view.book == s.books[id]
    ensures r.Render? ==> forall i :: i in r.view.instances <==> i in s.instances && s.instances[i].book == id
  {
    if id !in s.books then NotFound
    else Render(BookPageView(id, s.books[id], InstancesOfBook(s, id)))
  }

  /** The empty create form: every author and every genre, none ticked. */
  function BookCreateForm(s: Store): (r: Outcome<BookFormView>)
    requires Valid(s)
    ensures r.Render? && r.view.book.None? && r.view.errors == []
    ensures forall a :: a in r.view.authors <==> a in s.authors
    ensures OffersAllGenres(r.view.genres, s)
    ensures forall i :: 0 <= i < |r.view.genres| ==> !r.view.genres[i].checked
  {
    Render(BookFormView(AllAuthors(s), Unmarked(AllGenres(s)), None, None, []))
  }

  /**
   * The form redisplayed after a failed validation. A genre is ticked when
   * the book object's genre list holds its id, which happens only when
   * every submitted genre casts and one of them is the genre's text.
   */
  function Redisplay(s: Store, e: BookForm, id: Option<Id>, errors: seq<FieldError>): (v: BookFormView)
    requires Valid(s)
    ensures v.book == Some(EchoOf(e)) && v.id == id && v.errors == errors
    ensures forall a :: a in v.authors <==> a in s.authors
    ensures OffersAllGenres(v.genres, s)
    ensures forall i :: 0 <= i < |v.genres| ==>
      (v.genres[i].checked <==> CastAll(e.genre).Some? && IdText(v.genres[i].id) in e.genre)
  {
    BookFormView(AllAuthors(s), MarkSelected(AllGenres(s), CastGenreList(e.genre)), Some(EchoOf(e)), id, errors)
  }

  /** The redisplay ticks exactly the genres the echoed book document lists. */
  lemma RedisplayTicksEcho(s: Store, e: BookForm, id: Option<Id>, errors: seq<FieldError>)
    requires Valid(s)
    ensures var v := Redisplay(s, e, id, errors);
      forall i :: 0 <= i < |v.genres| ==> (v.genres[i].checked <==> v.genres[i].id in v.book.value.genre)
  {
  }

  /**
   * The page the update handler's first pass through its genre loop
   * renders: only the first genre has been marked by then, so it is the
   * redisplay with every later option unticked.
   */
  function RedisplayFirstPass(s: Store, e: BookForm, id: Option<Id>, errors: seq<FieldError>): (v: BookFormView)
    requires Valid(s)
    ensures var w := Redisplay(s, e, id, errors);
      && v.authors == w.authors && v.book == w.book && v.id == w.id && v.errors == w.errors
      && |v.genres| == |w.genres|
      && (|v.genres| > 0 ==> v.genres[0] == w.genres[0])
      && forall i :: 1 <= i < |v.genres| ==> v.genres[i] == w.genres[i].(checked := false)
  {
    var g := AllGenres(s);
    var ticked := CastGenreList(e.genre);
    var opts := if |g| == 0 then [] else MarkSelected(g[..1], ticked) + Unmarked(g[1..]);
    BookFormView(AllAuthors(s), opts, Some(EchoOf(e)), id, errors)
  }

  /**
   * Create submission. A blank field redisplays the form and leaves the
   * store alone; a valid form whose references cast is stored under a
   * freshly minted id and the browser is sent to the new book; a reference
   * that does not cast makes the save fail.
   */
  function BookCreatePost(s: Store, q: BookRequest): (r: Response<BookFormView>)
    requires Valid(s)
    ensures Valid(r.store)
    ensures r.outcome.Render? || r.outcome.Failed? || r.outcome.Redirect?
    ensures r.outcome.Render? <==> BookErrors(Submitted(q), Creating) != []
    ensures r.outcome.Render? ==>
      && r.store == s
      && r.outcome.view == Redisplay(s, SanitiseBook(Submitted(q)), None, BookErrors(Submitted(q), Creating))
    ensures r.outcome.Failed? <==>
      BookErrors(Submitted(q), Creating) == [] && ToBook(SanitiseBook(Submitted(q))).None?
    ensures r.outcome.Failed? ==> r.store == s
    ensures r.outcome.Redirect? ==> r.outcome.target.BookPage? && ToBook(SanitiseBook(Submitted(q))).Some?
    ensures r.outcome.Redirect? && r.outcome.target.BookPage? && ToBook(SanitiseBook(Submitted(q))).Some? ==>
      BookAdded(s, r.store, r.outcome.target.id, ToBook(SanitiseBook(Submitted(q))).value)
  {
    var f := Submitted(q);
    var e := SanitiseBook(f);
    var errors := BookErrors(f, Creating);
    if errors != [] then
      Response(s, Render(Redisplay(s, e, None, errors)))
    else
      match ToBook(e)
      case None => Response(s, Failed)
      case Some(b) =>
        var (t, id) := InsertBook(s, b);
        Response(t, Redirect(BookPage(id)))
  }

  /** Update form: the stored book, with a box ticked for each of its genres; not found if missing. */
  function BookUpdateForm(s: Store, id: Id): (r: Outcome<BookEditView>)
    requires Valid(s)
    ensures r.NotFound? <==> id !in s.books
    ensures r.NotFound? || r.Render?
    ensures r.Render? ==> r.view.id == id && r.view.book == s.books[id]
    ensures r.Render? ==> OffersAllGenres(r.view.genres, s)
    ensures r.Render? ==> forall i :: 0 <= i < |r.view.genres| ==>
      (r.view.genres[i].checked <==> r.view.genres[i].id in s.books[id].genre)
  {
    if id !in s.books then NotFound
    else Render(BookEditView(id, s.books[id], AllAuthors(s), MarkSelected(AllGenres(s), s.books[id].genre)))
  }

  /**
   * Update submission, with the redisplay rendered once. The record is
   * rebuilt with the id from the URL reattached, so a successful update
   * overwrites that id and mints none. A missing book makes
   * `findByIdAndUpdate` yield null, and reading its `url` throws outside
   * any handler.
   */
  function BookUpdatePost(s: Store, id: Id, q: BookRequest): (r: Response<BookFormView>)
    requires Valid(s)
    ensures Valid(r.store)
    ensures r.outcome.Render? || r.outcome.Unanswered? || r.outcome.Redirect?
    ensures r.outcome.Render? <==> BookErrors(Submitted(q), Updating) != []
    ensures r.outcome.Render? ==>
      && r.store == s
      && r.outcome.view == Redisplay(s, SanitiseBook(Submitted(q)), Some(id), BookErrors(Submitted(q), Updating))
    ensures r.outcome.Unanswered? <==> BookErrors(Submitted(q), Updating) == [] && id !in s.books
    ensures r.outcome.Unanswered? ==> r.store == s
    ensures r.outcome.Redirect? ==>
      && r.outcome.target == BookPage(id)
      && id in s.books
      && r.store.books == s.books[id := UpdatedBook(s.books[id], SanitiseBook(Submitted(q)))]
      && OnlyBooksChange(s, r.store)
  {
    var f := Submitted(q);
    var e := SanitiseBook(f);
    var errors := BookErrors(f, Updating);
    if errors != [] then
      Response(s, Render(Redisplay(s, e, Some(id), errors)))
    else if id !in s.books then
      Response(s, Unanswered)
    else
      Response(ReplaceBook(s, id, UpdatedBook(s.books[id], e)), Redirect(BookPage(id)))
  }

  /**
   * Unlike create, update never fails on a reference that does not cast:
   * the stored author is kept, the genres are emptied, and the browser is
   * sent to the book.
   */
  lemma BookUpdatePartialWrite(s: Store, id: Id, q: BookRequest)
    requires Valid(s) && id in s.books
    ensures BookErrors(Submitted(q), Updating) == [] && !Canonical(SanitiseBook(Submitted(q)).author) ==>
      && BookCreatePost(s, q).outcome == Failed
      && var r := BookUpdatePost(s, id, q);
        && r.outcome == Redirect(BookPage(id))
        && r.store.books[id].author == s.books[id].author
  {
    BookErrorsModes(Submitted(q));
  }

  /**
   * Update submission as the handler is written: the redisplay is rendered
   * inside the loop over the stored genres. With no genre stored nothing
   * is rendered and no response is sent; otherwise the response is the
   * page rendered on the first pass, when only the first genre is marked.
   */
  function BookUpdatePostAsWritten(s: Store, id: Id, q: BookRequest): (r: Response<BookFormView>)
    requires Valid(s)
    ensures BookErrors(Submitted(q), Updating) == [] ==> r == BookUpdatePost(s, id, q)
    ensures BookErrors(Submitted(q), Updating) != [] ==> r.store == s
    ensures BookErrors(Submitted(q), Updating) != [] ==> (r.outcome == Unanswered <==> s.genres == map[])
    ensures BookErrors(Submitted(q), Updating) != [] && s.genres != map[] ==>
      r.outcome == Render(RedisplayFirstPass(s, SanitiseBook(Submitted(q)), Some(id), BookErrors(Submitted(q), Updating)))
  {
    var f := Submitted(q);
    var errors := BookErrors(f, Updating);
    if errors == [] then BookUpdatePost(s, id, q)
    else if |s.genres| == 0 then Response(s, Unanswered)
    else Response(s, Render(RedisplayFirstPass(s, SanitiseBook(f), Some(id), errors)))
  }

  /**
   * With no genre stored, a blank field in an update submission leaves the
   * request unanswered as written, while rendering once after the loop
   * redisplays the form.
   */
  lemma BookUpdateRedisplayFinding(s: Store, id: Id, q: BookRequest)
    requires Valid(s) && s.genres == map[]
    requires IsBlank(q.title)
    ensures BookUpdatePostAsWritten(s, id, q).outcome == Unanswered
    ensures BookUpdatePost(s, id, q).outcome.Render?
    ensures BookUpdatePost(s, id, q).outcome.view.errors != []
  {
  }

  /**
   * A submitted genre stored after some other genre is ticked on the
   * redisplay but unticked on the first pass's page.
   */
  lemma FirstPassUnticksLater(s: Store, e: BookForm, id: Option<Id>, errors: seq<FieldError>, g: Id, h: Id)
    requires Valid(s) && h in s.genres && g in s.genres && h < g
    requires CastAll(e.genre).Some? && IdText(g) in e.genre
    ensures var w := Redisplay(s, e, id, errors);
      exists i :: 0 <= i < |w.genres| && w.genres[i].id == g && w.genres[i].checked
    ensures var v := RedisplayFirstPass(s, e, id, errors);
      forall i :: 0 <= i < |v.genres| && v.genres[i].id == g ==> !v.genres[i].checked
  {
    var w := Redisplay(s, e, id, errors);
    var v := RedisplayFirstPass(s, e, id, errors);
    var i :| 0 <= i < |w.genres| && w.genres[i].id == g;
    var j :| 0 <= j < |w.genres| && w.genres[j].id == h;
    OnlyFirstTicked(w.genres, v.genres, g, j);
  }

  /**
   * On options listed in increasing id order with only the first one's
   * tick kept, an id larger than some listed id is never ticked.
   */
  lemma OnlyFirstTicked(w: seq<GenreOption>, v: seq<GenreOption>, g: Id, j: nat)
    requires forall i, k :: 0 <= i < k < |w| ==> w[i].id < w[k].id
    requires |v| == |w| && (|v| > 0 ==> v[0] == w[0])
    requires forall i :: 1 <= i < |v| ==> v[i] == w[i].(checked := false)
    requires j < |w| && w[j].id < g
    ensures forall k :: 0 <= k < |v| && v[k].id == g ==> !v[k].checked
  {
    forall k | 0 <= k < |v| && v[k].id == g ensures !v[k].checked {
      if k == 0 {
        assert false;
      }
    }
  }

  /**
   * With two genres stored, a submitted genre that is not the first stored
   * one is ticked by the redisplay rendered once, but shows unticked on
   * the page the handler as written sends.
   */
  lemma BookUpdateFirstPassFinding(s: Store, id: Id, q: BookRequest, g: Id, h: Id)
    requires Valid(s) && BookErrors(Submitted(q), Updating) != []
    requires h in s.genres && g in s.genres && h < g
    requires CastAll(SanitiseBook(Submitted(q)).genre).Some? && IdText(g) in SanitiseBook(Submitted(q)).genre
    ensures var w := BookUpdatePost(s, id, q).outcome.view;
      exists i :: 0 <= i < |w.genres| && w.genres[i].id == g && w.genres[i].checked
    ensures var v := BookUpdatePostAsWritten(s, id, q).outcome.view;
      forall i :: 0 <= i < |v.genres| && v.genres[i].id == g ==> !v.genres[i].checked
  {
    FirstPassUnticksLater(s, SanitiseBook(Submitted(q)), Some(id), BookErrors(Submitted(q), Updating), g, h);
  }

  /** Delete page: the book and its copies; a missing book sends the browser to the list. */
  function BookDeleteForm(s: Store, id: Id): (r: Outcome<BookPageView>)
    requires Valid(s)
    ensures r == Redirect(BookListPage) <==> id !in s.books
    ensures r.Redirect? || r.Render?
    ensures r.Render? ==>
      && r.view.book == s.books[id]
      && forall i :: i in r.view.instances <==> i in s.instances && s.instances[i].book == id
  {
    if id !in s.books then Redirect(BookListPage)
    else Render(BookPageView(id, s.books[id], InstancesOfBook(s, id)))
  }

  /**
   * Delete submission as the handler is written: the blocked page is
   * rendered when copies exist, but with no `return` after it the removal
   * still runs, so the book is gone either way. Its callback's redirect
   * then throws, the page having been sent; that later error is not part
   * of the outcome.
   */
  function BookDeletePost(s: Store, id: Id): (r: Response<BookPageView>)
    requires Valid(s)
    ensures Valid(r.store)
    ensures r.store.books == s.books - {id} && OnlyBooksChange(s, r.store)
    ensures r.outcome.Blocked? <==> exists i :: i in s.instances && s.instances[i].book == id
    ensures r.outcome.Blocked? ==> forall i :: i in r.outcome.dependents <==> i in s.instances && s.instances[i].book == id
    ensures !r.outcome.Blocked? ==> r.outcome == Redirect(BookListPage)
  {
    var copies := InstancesOfBook(s, id);
    assert |copies| > 0 ==> copies[0] in copies;
    var removed := s.(books := s.books - {id});
    if |copies| > 0 then Response(removed, Blocked(copies))
    else Response(removed, Redirect(BookListPage))
  }

  /** Delete submission with the blocked page treated as terminal, as the author and genre handlers do. */
  function BookDeletePostGuarded(s: Store, id: Id): (r: Response<BookPageView>)
    requires Valid(s)
    ensures Valid(r.store)
    ensures r.outcome.Blocked? <==> exists i :: i in s.instances && s.instances[i].book == id
    ensures r.outcome.Blocked? ==>
      && r.store == s
      && forall i :: i in r.outcome.dependents <==> i in s.instances && s.instances[i].book == id
    ensures !r.outcome.Blocked? ==>
      && r.outcome == Redirect(BookListPage)
      && r.store.books == s.books - {id} && OnlyBooksChange(s, r.store)
  {
    var copies := InstancesOfBook(s, id);
    assert |copies| > 0 ==> copies[0] in copies;
    if |copies| > 0 then Response(s, Blocked(copies))
    else Response(s.(books := s.books - {id}), Redirect(BookListPage))
  }

  /**
   * As written, deleting a book that still has a copy answers "blocked"
   * yet removes the book, leaving the copy pointing at nothing.
   */
  lemma BookDeleteLeavesDanglingCopy()
    ensures var s := Store(map[0 := Author("Ann", "Lee", None, None)],
                           map[1 := Book("T", 0, "S", "I", [])],
                           map[],
                           map[2 := BookInstance(1, "P", "Available", None)],
                           3);
      && Valid(s) && Referential(s)
      && var r := BookDeletePost(s, 1);
      && r.outcome.Blocked? && 1 !in r.store.books && !Referential(r.store)
  {
    var s := Store(map[0 := Author("Ann", "Lee", None, None)],
                   map[1 := Book("T", 0, "S", "I", [])],
                   map[],
                   map[2 := BookInstance(1, "P", "Available", None)],
                   3);
    assert s.instances[2].book == 1;
    var r := BookDeletePost(s, 1);
    assert r.store.instances[2].book !in r.store.books;
  }

  /** The guarded delete keeps every copy pointing at a stored book. */
  lemma BookDeleteGuardedKeepsReferences(s: Store, id: Id)
    requires Valid(s) && Referential(s)
    ensures Referential(BookDeletePostGuarded(s, id).store)
  {
    var r := BookDeletePostGuarded(s, id);
    if !r.outcome.Blocked? {
      forall i | i in r.store.instances ensures r.store.instances[i].book in r.store.books {
        assert s.instances[i].book != id;
      }
    }
  }

  /** After a successful create, the detail page of the new id shows the submitted book. */
  lemma BookCreateThenDetail(s: Store, q: BookRequest)
    requires Valid(s)
    ensures var r := BookCreatePost(s, q);
      r.outcome.Redirect? ==>
      var d := BookDetail(r.store, r.outcome.target.id);
      d.Render? && Denotes(d.view.book, SanitiseBook(Submitted(q)))
  {
  }

  /**
   * After a successful update, the same id shows the new values, the set
   * of ids is unchanged, and a form whose references all cast shows
   * exactly the record the form denotes.
   */
  lemma BookUpdateThenDetail(s: Store, id: Id, q: BookRequest)
    requires Valid(s)
    ensures var r := BookUpdatePost(s, id, q);
      var e := SanitiseBook(Submitted(q));
      r.outcome.Redirect? ==>
      var d := BookDetail(r.store, id);
      && d.Render? && d.view.id == id && d.view.book == UpdatedBook(s.books[id], e)
      && (ToBook(e).Some? ==> Denotes(d.view.book, e))
      && r.store.books.Keys == s.books.Keys && r.store.next == s.next
  {
  }
}

=== FILE: forms.dfy ===
/**
 * The form intake pipeline shared by the controllers: coercing the
 * multi-valued genre field to a list, the required-field rule, casting
 * reference fields to ids, and marking which genre checkboxes are ticked.
 */
module Forms {
  import opened Wrappers
  import opened Ids
  import opened Store
  import opened Text

  /** The submitted `genre` field: missing, one checkbox value, or several. */
  datatype GenreField = Absent | Single(value: string) | Many(values: seq<string>)

  /** Coerces the genre field to a list, keeping every submitted value in order. */
  function Normalise(f: GenreField): (r: seq<string>)
    ensures f.Absent? ==> r == []
    ensures f.Single? ==> |r| == 1 && r[0] == f.value
    ensures f.Many? ==> r == f.values
  {
    match f
    case Absent => []
    case Single(v) => [v]
    case Many(vs) => vs
  }

  /** A list already normalised passes through a second normalisation unchanged. */
  lemma NormaliseIdempotent(f: GenreField)
    ensures Normalise(Many(Normalise(f))) == Normalise(f)
  {
  }

  /** The form fields a rule can reject, in the order their rules are declared. */
  datatype Field =
    | Title | AuthorRef | Summary | Isbn
    | FirstName | FamilyName | DateOfBirth | DateOfDeath
    | GenreName

  /** The position of a field's rules in the declared rule order. */
  function Rank(f: Field): nat {
    match f
    case Title => 0
    case AuthorRef => 1
    case Summary => 2
    case Isbn => 3
    case FirstName => 4
    case FamilyName => 5
    case DateOfBirth => 6
    case DateOfDeath => 7
    case GenreName => 8
  }

  /** One entry of the error list handed back to the form. */
  datatype FieldError = FieldError(field: Field, msg: string)

  /** Errors listed in strictly increasing rule order: at most one per field. */
  predicate InRuleOrder(r: seq<FieldError>) {
    forall i, j :: 0 <= i < j < |r| ==> Rank(r[i].field) < Rank(r[j].field)
  }

  /** Every error in `r` comes from a rule declared before `field`'s. */
  predicate Precedes(r: seq<FieldError>, field: Field) {
    forall e :: e in r ==> Rank(e.field) < Rank(field)
  }

  /** Appending the errors of a later field keeps the list in rule order. */
  lemma AppendInRuleOrder(r: seq<FieldError>, s: seq<FieldError>, field: Field)
    requires InRuleOrder(r) && Precedes(r, field)
    requires |s| <= 1 && forall e :: e in s ==> e.field == field
    ensures InRuleOrder(r + s)
  {
    forall i, j | 0 <= i < j < |r + s| ensures Rank((r + s)[i].field) < Rank((r + s)[j].field) {
      if j >= |r| {
        assert (r + s)[j] == s[0] && r[i] in r;
      }
    }
  }

  /** Errors grouped by field in rule order: a field may report several, but never after a later field. */
  predicate InFieldOrder(r: seq<FieldError>) {
    forall i, j :: 0 <= i < j < |r| ==> Rank(r[i].field) <= Rank(r[j].field)
  }

  /** Appending any number of errors of a later field keeps the list grouped in rule order. */
  lemma AppendInFieldOrder(r: seq<FieldError>, s: seq<FieldError>, field: Field)
    requires InFieldOrder(r) && Precedes(r, field)
    requires forall e :: e in s ==> e.field == field
    ensures InFieldOrder(r + s)
    ensures forall e :: e in r + s ==> Rank(e.field) <= Rank(field)
  {
    forall i, j | 0 <= i < j < |r + s| ensures Rank((r + s)[i].field) <= Rank((r + s)[j].field) {
      if j >= |r| {
        assert (r + s)[j] == s[j - |r|] && s[j - |r|] in s;
        if i < |r| {
          assert r[i] in r;
        } else {
          assert (r + s)[i] == s[i - |r|] && s[i - |r|] in s;
        }
      }
    }
  }

  /** Four rules' outputs for four fields in rule order, concatenated, stay grouped by field. */
  lemma ConcatInFieldOrder(r: seq<FieldError>, a: seq<FieldError>, b: seq<FieldError>, c: seq<FieldError>, d: seq<FieldError>,
                           fa: Field, fb: Field, fc: Field, fd: Field)
    requires r == a + b + c + d
    requires Rank(fa) < Rank(fb) < Rank(fc) < Rank(fd)
    requires (forall e :: e in a ==> e.field == fa) && (forall e :: e in b ==> e.field == fb)
    requires (forall e :: e in c ==> e.field == fc) && (forall e :: e in d ==> e.field == fd)
    ensures InFieldOrder(r)
    ensures forall e :: e in r ==> Rank(fa) <= Rank(e.field) <= Rank(fd)
  {
    AppendInFieldOrder([], a, fa);
    assert [] + a == a;
    AppendInFieldOrder(a, b, fb);
    AppendInFieldOrder(a + b, c, fc);
    AppendInFieldOrder(a + b + c, d, fd);
  }

  /** The author form's four fields, in rule order, give a list grouped by field. */
  lemma ConcatAuthorFields(r: seq<FieldError>, a: seq<FieldError>, b: seq<FieldError>, c: seq<FieldError>, d: seq<FieldError>)
    requires r == a + b + c + d
    requires (forall e :: e in a ==> e.field == FirstName) && (forall e :: e in b ==> e.field == FamilyName)
    requires (forall e :: e in c ==> e.field == DateOfBirth) && (forall e :: e in d ==> e.field == DateOfDeath)
    ensures InFieldOrder(r)
    ensures forall e :: e in r ==> Rank(FirstName) <= Rank(e.field) <= Rank(DateOfDeath)
  {
    ConcatInFieldOrder(r, a, b, c, d, FirstName, FamilyName, DateOfBirth, DateOfDeath);
  }

  /** The required-field rule: trim, then reject if nothing is left. */
  function Required(field: Field, value: string, msg: string): (r: seq<FieldError>)
    ensures |r| <= 1
    ensures r == [] <==> !IsBlank(value)
    ensures forall e :: e in r ==> e == FieldError(field, msg)
  {
    if IsBlank(value) then [FieldError(field, msg)] else []
  }

  /** The stored form of a text field: trimmed, then HTML-escaped. */
  function Sanitise(value: string): (r: string)
    ensures r == [] <==> IsBlank(value)
  {
    Escape(Trim(value))
  }

  /** Casts every text to an id; fails if any one does not cast. */
  function CastAll(texts: seq<string>): (r: Option<seq<Id>>)
    ensures r.Some? <==> forall k :: 0 <= k < |texts| ==> Canonical(texts[k])
    ensures r.Some? ==> |r.value| == |texts|
    ensures r.Some? ==> forall k :: 0 <= k < |texts| ==> texts[k] == IdText(r.value[k])
  {
    if texts == [] then Some([])
    else
      var head := ParseId(texts[0]);
      var rest := CastAll(texts[1..]);
      assert forall k :: 1 <= k < |texts| ==> texts[k] == texts[1..][k - 1];
      if head.None? || rest.None? then
        None
      else
        ParseIdIff(texts[0], head.value);
        Some([head.value] + rest.value)
  }

  /**
   * The genre list of a book object built from the form: the array path
   * casts all or nothing, so one entry that does not cast leaves the
   * default empty list.
   */
  function CastGenreList(texts: seq<string>): (r: seq<Id>)
    ensures CastAll(texts).None? ==> r == []
    ensures forall id :: id in r <==> CastAll(texts).Some? && IdText(id) in texts
  {
    match CastAll(texts)
    case None => []
    case Some(ids) =>
      assert forall x :: x in ids <==> IdText(x) in texts by {
        forall x ensures x in ids <==> IdText(x) in texts {
          if x in ids {
            var k :| 0 <= k < |ids| && ids[k] == x;
            assert texts[k] == IdText(x);
          }
          if IdText(x) in texts {
            var k :| 0 <= k < |texts| && texts[k] == IdText(x);
            IdTextInjective(x, ids[k]);
            assert ids[k] in ids;
          }
        }
      }
      ids
  }

  /** A genre checkbox: the genre record and whether it renders ticked. */
  datatype GenreOption = GenreOption(id: Id, genre: Genre, checked: bool)

  /**
   * Marks each candidate genre `checked` exactly when its id is among the
   * book's genres; the list keeps its length, order and records.
   */
  function MarkSelected(genres: seq<(Id, Genre)>, selected: seq<Id>): (r: seq<GenreOption>)
    ensures |r| == |genres|
    ensures forall i :: 0 <= i < |r| ==>
      r[i].id == genres[i].0 && r[i].genre == genres[i].1 && (r[i].checked <==> genres[i].0 in selected)
  {
    if genres == [] then []
    else [GenreOption(genres[0].0, genres[0].1, genres[0].0 in selected)] + MarkSelected(genres[1..], selected)
  }

  /** Every option unticked, as the create form first shows them. */
  function Unmarked(genres: seq<(Id, Genre)>): (r: seq<GenreOption>)
    ensures |r| == |genres|
    ensures forall i :: 0 <= i < |r| ==> r[i].id == genres[i].0 && r[i].genre == genres[i].1 && !r[i].checked
  {
    MarkSelected(genres, [])
  }

  /**
   * The update form's marking loop: for every candidate genre, scan the
   * book's genre list and tick the candidate on any equal id.
   */
  method MarkSelectedNested(genres: seq<(Id, Genre)>, bookGenres: seq<Id>) returns (r: seq<GenreOption>)
    ensures |r| == |genres|
    ensures forall i :: 0 <= i < |r| ==>
      r[i].id == genres[i].0 && r[i].genre == genres[i].1 && (r[i].checked <==> genres[i].0 in bookGenres)
    ensures r == MarkSelected(genres, bookGenres)
  {
    r := Unmarked(genres);
    var a := 0;
    while a < |genres|
      invariant 0 <= a <= |genres|
      invariant |r| == |genres|
      invariant forall i :: 0 <= i < |r| ==> r[i].id == genres[i].0 && r[i].genre == genres[i].1
      invariant forall i :: 0 <= i < a ==> (r[i].checked <==> genres[i].0 in bookGenres)
      invariant forall i :: a <= i < |r| ==> !r[i].checked
    {
      var b := 0;
      while b < |bookGenres|
        invariant 0 <= b <= |bookGenres|
        invariant |r| == |genres|
        invariant forall i :: 0 <= i < |r| ==> r[i].id == genres[i].0 && r[i].genre == genres[i].1
        invariant forall i :: 0 <= i < a ==> (r[i].checked <==> genres[i].0 in bookGenres)
        invariant forall i :: a < i < |r| ==> !r[i].checked
        invariant r[a].checked <==> genres[a].0 in bookGenres[..b]
      {
        if genres[a].0 == bookGenres[b] {
          r := r[a := r[a].(checked := true)];
        }
        assert bookGenres[..b + 1] == bookGenres[..b] + [bookGenres[b]];
        b := b + 1;
      }
      assert bookGenres[..b] == bookGenres;
      a := a + 1;
    }
  }
}

=== FILE: genre_controller.dfy ===
/**
 * The genre pages: detail, create (which reuses an existing genre of the
 * same name), the update form and submission, and the delete page and
 * submission.
 */
module GenreController {
  import opened Wrappers
  import opened Ids
  import opened Store
  import opened Text
  import opened Forms
  import opened Responses

  /** The genre form page: the echoed genre, the id when updating, and the errors. */
  datatype GenreFormView = GenreFormView(genre: Genre, id: Option<Id>, errors: seq<FieldError>)

  /** A genre with the books filed under it, for the detail and delete pages. */
  datatype GenrePageView = GenrePageView(id: Id, genre: Genre, books: seq<Id>)

  /** The update form for a stored genre. */
  datatype GenreEditView = GenreEditView(id: Id, genre: Genre)

  const GenreNameRequired: string := "Genre name required"

  /** The ids of the stored genres called exactly `name`. */
  function Named(s: Store, name: string): (r: set<Id>)
    ensures forall g :: g in r <==> g in s.genres && s.genres[g].name == name
  {
    set g | g in s.genres && s.genres[g].name == name
  }

  /** `insert`: stores `g` under the freshly minted id. */
  function InsertGenre(s: Store, g: Genre): (r: (Store, Id))
    requires Valid(s)
    ensures Valid(r.0) && GenreAdded(s, r.0, r.1, g)
  {
    var id := FreshId(s);
    (s.(genres := s.genres[id := g], next := s.next + 1), id)
  }

  /** Detail page: the genre and its books, or not found. */
  function GenreDetail(s: Store, id: Id): (r: Outcome<GenrePageView>)
    requires Valid(s)
    ensures r.NotFound? <==> id !in s.genres
    ensures r.NotFound? || r.Render?
    ensures r.Render? ==> r.view.id == id && r.view.genre == s.genres[id]
    ensures r.Render? ==> forall b :: b in r.view.books <==> b in s.books && id in s.books[b].genre
  {
    if id !in s.genres then NotFound
    else Render(GenrePageView(id, s.genres[id], BooksInGenre(s, id)))
  }

  /**
   * Create submission. A blank name redisplays the form with its error.
   * Otherwise the trimmed, escaped name is looked up: an existing genre of
   * that exact name is reused, and only when there is none is one inserted.
   */
  function GenreCreatePost(s: Store, name: string): (r: Response<GenreFormView>)
    requires Valid(s)
    ensures Valid(r.store)
    ensures r.outcome.Render? || r.outcome.Redirect?
    ensures r.outcome.Render? <==> IsBlank(name)
    ensures r.outcome.Render? ==>
      && r.store == s
      && r.outcome.view == GenreFormView(Genre(Sanitise(name)), None, [FieldError(GenreName, GenreNameRequired)])
    ensures r.outcome.Redirect? ==> r.outcome.target.GenrePage?
    ensures r.outcome.Redirect? && r.outcome.target.GenrePage? ==>
      var id := r.outcome.target.id;
      && id in r.store.genres && r.store.genres[id].name == Sanitise(name)
      && (Named(s, Sanitise(name)) != {} ==> r.store == s && id in Named(s, Sanitise(name)))
      && (Named(s, Sanitise(name)) == {} ==> GenreAdded(s, r.store, id, Genre(Sanitise(name))))
  {
    var n := Sanitise(name);
    if IsBlank(name) then
      Response(s, Render(GenreFormView(Genre(n), None, [FieldError(GenreName, GenreNameRequired)])))
    else
      match FindGenreByName(s, n)
      case Some(found) => Response(s, Redirect(GenrePage(found)))
      case None =>
        var (t, id) := InsertGenre(s, Genre(n));
        Response(t, Redirect(GenrePage(id)))
  }

  /** Creating a name leaves at least one genre of that name, and never adds a second. */
  lemma GenreCreateNamedCount(s: Store, name: string)
    requires Valid(s) && !IsBlank(name)
    ensures var n := Sanitise(name);
      var t := GenreCreatePost(s, name).store;
      && Named(t, n) != {}
      && (Named(s, n) != {} ==> Named(t, n) == Named(s, n))
      && (Named(s, n) == {} ==> |Named(t, n)| == 1)
  {
    var n := Sanitise(name);
    var r := GenreCreatePost(s, name);
    if Named(s, n) == {} {
      var id := r.outcome.target.id;
      assert Named(r.store, n) == {id};
    }
  }

  /** Creating the same name twice: the second call stores nothing and sends the browser to the first genre. */
  lemma GenreCreateIdempotent(s: Store, name: string)
    requires Valid(s) && !IsBlank(name)
    ensures var r1 := GenreCreatePost(s, name);
      var r2 := GenreCreatePost(r1.store, name);
      && r2.store == r1.store
      && (Named(s, Sanitise(name)) == {} ==> r2.outcome == r1.outcome && |Named(r2.store, Sanitise(name))| == 1)
  {
    var n := Sanitise(name);
    var r1 := GenreCreatePost(s, name);
    GenreCreateNamedCount(s, name);
    if Named(s, n) == {} {
      var id := r1.outcome.target.id;
      assert Named(r1.store, n) == {id};
    }
  }

  /**
   * Names are compared after trimming and escaping, and escaping is
   * injective: two submissions reuse one genre exactly when their trimmed
   * names are equal.
   */
  lemma GenreCreateSameGenreIff(a: string, b: string)
    ensures Sanitise(a) == Sanitise(b) <==> Trim(a) == Trim(b)
  {
    EscapeInjective(Trim(a), Trim(b));
  }

  /** Delete page: the genre and its books; a missing genre sends the browser to the list. */
  function GenreDeleteForm(s: Store, id: Id): (r: Outcome<GenrePageView>)
    requires Valid(s)
    ensures r == Redirect(GenreListPage) <==> id !in s.genres
    ensures r.Redirect? || r.Render?
    ensures r.Render? ==>
      && r.view.genre == s.genres[id]
      && forall b :: b in r.view.books <==> b in s.books && id in s.books[b].genre
  {
    if id !in s.genres then Redirect(GenreListPage)
    else Render(GenrePageView(id, s.genres[id], BooksInGenre(s, id)))
  }

  /**
   * Delete submission. While any book lists the genre, the delete page is
   * redisplayed with those books and the store is untouched; otherwise only
   * that genre is removed.
   */
  function GenreDeletePost(s: Store, id: Id): (r: Response<GenrePageView>)
    requires Valid(s)
    ensures Valid(r.store)
    ensures r.outcome.Blocked? <==> exists b :: b in s.books && id in s.books[b].genre
    ensures r.outcome.Blocked? ==>
      && r.store == s
      && forall b :: b in r.outcome.dependents <==> b in s.books && id in s.books[b].genre
    ensures !r.outcome.Blocked? ==>
      && r.outcome == Redirect(GenreListPage)
      && r.store.genres == s.genres - {id}
      && OnlyGenresChange(s, r.store)
  {
    var books := BooksInGenre(s, id);
    assert |books| > 0 ==> books[0] in books;
    if |books| > 0 then Response(s, Blocked(books))
    else Response(s.(genres := s.genres - {id}), Redirect(GenreListPage))
  }

  /** Removing a genre only when no book lists it keeps every listed genre stored. */
  lemma GenreDeleteKeepsReferences(s: Store, id: Id)
    requires Valid(s) && Referential(s)
    ensures Referential(GenreDeletePost(s, id).store)
  {
    var r := GenreDeletePost(s, id);
    if !r.outcome.Blocked? {
      forall b, g | b in r.store.books && g in r.store.books[b].genre ensures g in r.store.genres {
        assert g != id;
      }
    }
  }

  /**
   * Update form as the handler is written: it is declared without `next`,
   * so a missing genre raises a reference error inside the promise chain,
   * the catch handler raises it again, and no response is sent.
   */
  function GenreUpdateFormAsWritten(s: Store, id: Id): (r: Outcome<GenreEditView>)
    ensures r.Unanswered? <==> id !in s.genres
    ensures r.Render? <==> id in s.genres
    ensures r.Render? ==> r.view == GenreEditView(id, s.genres[id])
  {
    if id !in s.genres then Unanswered
    else Render(GenreEditView(id, s.genres[id]))
  }

  /** Update form with the 404 the handler builds actually delivered. */
  function GenreUpdateForm(s: Store, id: Id): (r: Outcome<GenreEditView>)
    ensures r.NotFound? <==> id !in s.genres
    ensures r.Render? <==> id in s.genres
    ensures r.Render? ==> r.view == GenreEditView(id, s.genres[id])
  {
    if id !in s.genres then NotFound
    else Render(GenreEditView(id, s.genres[id]))
  }

  /** The two update forms differ exactly on a missing genre, where only the corrected one answers 404. */
  lemma GenreUpdateFormFinding(s: Store, id: Id)
    requires id !in s.genres
    ensures GenreUpdateFormAsWritten(s, id) == Unanswered
    ensures GenreUpdateForm(s, id) == NotFound
  {
  }

  /**
   * Update submission. A blank name redisplays the form without its error
   * list. Otherwise the genre is rebuilt with the id from the URL
   * reattached, so the update overwrites that id and mints none; a missing
   * genre yields null, and reading its `url` throws outside any handler.
   */
  function GenreUpdatePost(s: Store, id: Id, name: string): (r: Response<GenreFormView>)
    requires Valid(s)
    ensures Valid(r.store)
    ensures r.outcome.Render? || r.outcome.Unanswered? || r.outcome.Redirect?
    ensures r.outcome.Render? <==> IsBlank(name)
    ensures r.outcome.Render? ==>
      && r.store == s
      && r.outcome.view == GenreFormView(Genre(Sanitise(name)), Some(id), [])
    ensures r.outcome.Unanswered? <==> !IsBlank(name) && id !in s.genres
    ensures r.outcome.Unanswered? ==> r.store == s
    ensures r.outcome.Redirect? ==>
      && r.outcome.target == GenrePage(id)
      && r.store.genres == s.genres[id := Genre(Sanitise(name))]
      && r.store.genres.Keys == s.genres.Keys
      && OnlyGenresChange(s, r.store)
  {
    var n := Sanitise(name);
    if IsBlank(name) then
      Response(s, Render(GenreFormView(Genre(n), Some(id), [])))
    else if id !in s.genres then
      Response(s, Unanswered)
    else
      Response(s.(genres := s.genres[id := Genre(n)]), Redirect(GenrePage(id)))
  }
}

=== FILE: ids.dfy ===
/**
 * Record identifiers. The store assigns them; they are compared only for
 * equality and travel through forms and URLs as decimal text.
 */
module Ids {
  import opened Wrappers

  /** An opaque store-assigned identifier. */
  type Id = nat

  predicate IsDigit(c: char) {
    '0' <= c <= '9'
  }

  function DigitChar(d: nat): (c: char)
    requires d < 10
    ensures IsDigit(c)
  {
    ('0' as int + d) as char
  }

  function DigitValue(c: char): (d: nat)
    requires IsDigit(c)
    ensures d < 10 && DigitChar(d) == c
  {
    c as int - '0' as int
  }

  predicate AllDigits(t: string) {
    forall k :: 0 <= k < |t| ==> IsDigit(t[k])
  }

  /** The canonical text of an id: non-empty decimal digits without a leading zero. */
  predicate Canonical(t: string) {
    |t| >= 1 && AllDigits(t) && (|t| == 1 || t[0] != '0')
  }

  /** The decimal text an id is written as in a form value or a URL. */
  function IdText(n: Id): (t: string)
    ensures Canonical(t)
  {
    if n < 10 then [DigitChar(n)] else IdText(n / 10) + [DigitChar(n % 10)]
  }

  /** The number a string of decimal digits denotes. */
  function DigitsValue(t: string): nat
    requires AllDigits(t)
  {
    if t == [] then 0 else 10 * DigitsValue(t[..|t| - 1]) + DigitValue(t[|t| - 1])
  }

  /** Casts form text to an id; only canonical decimal text casts. */
  function ParseId(t: string): (r: Option<Id>)
    ensures r.Some? <==> Canonical(t)
  {
    if Canonical(t) then Some(DigitsValue(t)) else None
  }

  lemma {:induction false} DigitsValueOfText(n: Id)
    ensures DigitsValue(IdText(n)) == n
  {
    if n >= 10 {
      var t := IdText(n);
      DigitsValueOfText(n / 10);
      assert t[..|t| - 1] == IdText(n / 10);
    }
  }

  lemma {:induction false} LeadingDigitPositive(t: string)
    requires |t| >= 1 && AllDigits(t) && t[0] != '0'
    ensures DigitsValue(t) >= 1
  {
    if |t| > 1 {
      LeadingDigitPositive(t[..|t| - 1]);
    }
  }

  lemma {:induction false} TextOfDigitsValue(t: string)
    requires Canonical(t)
    ensures IdText(DigitsValue(t)) == t
  {
    var n := DigitsValue(t);
    var d := DigitValue(t[|t| - 1]);
    if |t| > 1 {
      var u := t[..|t| - 1];
      LeadingDigitPositive(u);
      TextOfDigitsValue(u);
      assert n / 10 == DigitsValue(u) && n % 10 == d;
      assert t == u + [t[|t| - 1]];
    }
  }

  /** Writing an id and casting it back gives the id. */
  lemma ParseIdText(n: Id)
    ensures ParseId(IdText(n)) == Some(n)
  {
    DigitsValueOfText(n);
  }

  /** Text casts to `n` exactly when it is the canonical text of `n`. */
  lemma ParseIdIff(t: string, n: Id)
    ensures ParseId(t) == Some(n) <==> t == IdText(n)
  {
    if ParseId(t) == Some(n) {
      TextOfDigitsValue(t);
    }
    if t == IdText(n) {
      ParseIdText(n);
    }
  }

  /** Distinct ids are written differently. */
  lemma IdTextInjective(a: Id, b: Id)
    ensures IdText(a) == IdText(b) <==> a == b
  {
    ParseIdText(a);
    ParseIdText(b);
  }
}

=== FILE: responses.dfy ===
/**
 * How a request ends. Every controller path terminates in exactly one of
 * these, and mutating paths also return the resulting store.
 */
module Responses {
  import opened Ids
  import opened Store

  /** Where a redirect points. */
  datatype Target =
    | AuthorListPage | BookListPage | GenreListPage
    | AuthorPage(id: Id) | BookPage(id: Id) | GenrePage(id: Id)

  datatype Outcome<+V> =
    | Render(view: V)                  // a page rendered from the composed view model
    | Redirect(target: Target)
    | NotFound                         // an error with status 404 passed to the error handler
    | Blocked(dependents: seq<Id>)     // the delete page redisplayed with the blocking records
    | Failed                           // a store or validation error passed to `next`
    | Unanswered                       // no response is sent: an exception outside any handler, or a callback that returns without responding

  /** The store after the request together with how the request ended. */
  datatype Response<+V> = Response(store: Store, outcome: Outcome<V>)
}

=== FILE: store.dfy ===
/**
 * The catalog's persisted state: one map per collection from store-assigned
 * ids to records, plus the counter the store mints new ids from.
 */
module Store {
  import opened Wrappers
  import opened Ids

  /** A calendar date as the store keeps it. */
  datatype Date = Date(year: int, month: int, day: int)

  datatype Author = Author(
    firstName: string,
    familyName: string,
    dateOfBirth: Option<Date>,
    dateOfDeath: Option<Date>)

  /** A book refers to one author and any number of genres by id. */
  datatype Book = Book(title: string, author: Id, summary: string, isbn: string, genre: seq<Id>)

  datatype Genre = Genre(name: string)

  /** A physical copy of a book. */
  datatype BookInstance = BookInstance(book: Id, imprint: string, status: string, dueBack: Option<Date>)

  datatype Store = Store(
    authors: map<Id, Author>,
    books: map<Id, Book>,
    genres: map<Id, Genre>,
    instances: map<Id, BookInstance>,
    next: Id)

  /** Every key of `m` was minted before `n`. */
  predicate Below<V>(m: map<Id, V>, n: Id) {
    forall k :: k in m ==> k < n
  }

  /** The store invariant: every stored id was minted by the counter, so `next` is fresh. */
  predicate Valid(s: Store) {
    Below(s.authors, s.next) && Below(s.books, s.next) && Below(s.genres, s.next) && Below(s.instances, s.next)
  }

  /** `id` is used by no collection of `s`. */
  predicate Unused(s: Store, id: Id) {
    id !in s.authors && id !in s.books && id !in s.genres && id !in s.instances
  }

  /** The id the next insertion receives; it is free in every collection. */
  function FreshId(s: Store): (id: Id)
    requires Valid(s)
    ensures Unused(s, id)
  {
    s.next
  }

  /** Only the authors may differ between `s` and `t`, and no id is minted. */
  predicate OnlyAuthorsChange(s: Store, t: Store) {
    t.books == s.books && t.genres == s.genres && t.instances == s.instances && t.next == s.next
  }

  /** Only the books may differ between `s` and `t`, and no id is minted. */
  predicate OnlyBooksChange(s: Store, t: Store) {
    t.authors == s.authors && t.genres == s.genres && t.instances == s.instances && t.next == s.next
  }

  /** Only the genres may differ between `s` and `t`, and no id is minted. */
  predicate OnlyGenresChange(s: Store, t: Store) {
    t.authors == s.authors && t.books == s.books && t.instances == s.instances && t.next == s.next
  }

  /** `t` is `s` with author `a` inserted under the unused id `id`, minted from the counter. */
  predicate AuthorAdded(s: Store, t: Store, id: Id, a: Author) {
    && Unused(s, id) && t.authors == s.authors[id := a]
    && t.books == s.books && t.genres == s.genres && t.instances == s.instances && t.next == s.next + 1
  }

  /** `t` is `s` with book `b` inserted under the unused id `id`, minted from the counter. */
  predicate BookAdded(s: Store, t: Store, id: Id, b: Book) {
    && Unused(s, id) && t.books == s.books[id := b]
    && t.authors == s.authors && t.genres == s.genres && t.instances == s.instances && t.next == s.next + 1
  }

  /** `t` is `s` with genre `g` inserted under the unused id `id`, minted from the counter. */
  predicate GenreAdded(s: Store, t: Store, id: Id, g: Genre) {
    && Unused(s, id) && t.genres == s.genres[id := g]
    && t.authors == s.authors && t.books == s.books && t.instances == s.instances && t.next == s.next + 1
  }

  predicate Increasing(r: seq<Id>) {
    forall i, j :: 0 <= i < j < |r| ==> r[i] < r[j]
  }

  /**
   * The ids of `m` below `n` in ascending order. Ids are minted in
   * increasing order, so this is the store's insertion ("natural") order.
   */
  function ListIds<V>(m: map<Id, V>, n: nat): (r: seq<Id>)
    ensures forall i :: 0 <= i < |r| ==> r[i] in m && r[i] < n
    ensures forall k :: k in m && k < n ==> k in r
    ensures Increasing(r)
  {
    if n == 0 then []
    else
      var rest := ListIds(m, n - 1);
      if n - 1 !in m then rest
      else
        var r := rest + [n - 1];
        assert Increasing(r) by {
          forall i, j | 0 <= i < j < |r| ensures r[i] < r[j] {
            assert r[i] == rest[i];
          }
        }
        r
  }

  /** The ids among `ids` whose record in `m` satisfies `p`, in the order of `ids`. */
  function Select<V>(m: map<Id, V>, ids: seq<Id>, p: V -> bool): (r: seq<Id>)
    ensures forall x :: x in r <==> x in ids && x in m && p(m[x])
    ensures Increasing(ids) ==> Increasing(r)
  {
    if ids == [] then []
    else
      assert Increasing(ids) ==> Increasing(ids[1..]);
      var rest := Select(m, ids[1..], p);
      assert Increasing(ids) ==> forall x :: x in rest ==> ids[0] < x by {
        if Increasing(ids) {
          forall x | x in rest ensures ids[0] < x {
            var j :| 0 <= j < |ids[1..]| && ids[1..][j] == x;
            assert ids[j + 1] == x;
          }
        }
      }
      if ids[0] in m && p(m[ids[0]]) then
        assert Increasing(ids) ==> Increasing([ids[0]] + rest) by {
          if Increasing(ids) {
            assert Increasing(ids[1..]);
            forall i, j | 0 <= i < j < |rest| + 1 ensures ([ids[0]] + rest)[i] < ([ids[0]] + rest)[j] {
              assert ([ids[0]] + rest)[j] == rest[j - 1] && rest[j - 1] in rest;
              if i > 0 { assert ([ids[0]] + rest)[i] == rest[i - 1]; }
            }
          }
        }
        [ids[0]] + rest
      else rest
  }

  /** The genres in natural order, each once, with their records. */
  function AllGenres(s: Store): (r: seq<(Id, Genre)>)
    requires Valid(s)
    ensures forall i :: 0 <= i < |r| ==> r[i].0 in s.genres && s.genres[r[i].0] == r[i].1
    ensures forall g :: g in s.genres ==> exists i :: 0 <= i < |r| && r[i].0 == g
    ensures forall i, j :: 0 <= i < j < |r| ==> r[i].0 < r[j].0
  {
    var ids := ListIds(s.genres, s.next);
    var r := seq(|ids|, i requires 0 <= i < |ids| => (ids[i], s.genres[ids[i]]));
    assert forall g :: g in s.genres ==> exists i :: 0 <= i < |r| && r[i].0 == g by {
      forall g | g in s.genres ensures exists i :: 0 <= i < |r| && r[i].0 == g {
        var i :| 0 <= i < |ids| && ids[i] == g;
        assert r[i].0 == g;
      }
    }
    r
  }

  /** The authors' ids in natural order. */
  function AllAuthors(s: Store): (r: seq<Id>)
    requires Valid(s)
    ensures forall a :: a in r <==> a in s.authors
    ensures Increasing(r)
  {
    ListIds(s.authors, s.next)
  }

  /** Books whose author is `a`: the dependents blocking an author delete. */
  function BooksByAuthor(s: Store, a: Id): (r: seq<Id>)
    requires Valid(s)
    ensures forall b :: b in r <==> b in s.books && s.books[b].author == a
    ensures Increasing(r)
  {
    Select(s.books, ListIds(s.books, s.next), (b: Book) => b.author == a)
  }

  /** Books whose genre list contains `g`: the dependents blocking a genre delete. */
  function BooksInGenre(s: Store, g: Id): (r: seq<Id>)
    requires Valid(s)
    ensures forall b :: b in r <==> b in s.books && g in s.books[b].genre
    ensures Increasing(r)
  {
    Select(s.books, ListIds(s.books, s.next), (b: Book) => g in b.genre)
  }

  /** Copies of book `b`: the dependents of a book. */
  function InstancesOfBook(s: Store, b: Id): (r: seq<Id>)
    requires Valid(s)
    ensures forall i :: i in r <==> i in s.instances && s.instances[i].book == b
    ensures Increasing(r)
  {
    Select(s.instances, ListIds(s.instances, s.next), (i: BookInstance) => i.book == b)
  }

  /**
   * `findOne({name})`: the first genre in natural order whose name is
   * exactly `name`, if any.
   */
  function FindGenreByName(s: Store, name: string): (r: Option<Id>)
    requires Valid(s)
    ensures r.None? <==> forall g :: g in s.genres ==> s.genres[g].name != name
    ensures r.Some? ==> r.value in s.genres && s.genres[r.value].name == name
    ensures r.Some? ==> forall g :: g in s.genres && s.genres[g].name == name ==> r.value <= g
  {
    var hits := Select(s.genres, ListIds(s.genres, s.next), (g: Genre) => g.name == name);
    if hits == [] then None
    else
      assert forall g :: g in s.genres && s.genres[g].name == name ==> hits[0] <= g by {
        forall g | g in s.genres && s.genres[g].name == name ensures hits[0] <= g {
          var j :| 0 <= j < |hits| && hits[j] == g;
        }
      }
      assert hits[0] in hits;
      Some(hits[0])
  }

  /** A set is no larger than any superset. */
  lemma {:induction false} SubsetCard<T>(a: set<T>, b: set<T>)
    requires a <= b
    ensures |a| <= |b|
    decreases b
  {
    if a != {} {
      var x :| x in a;
      SubsetCard(a - {x}, b - {x});
    }
  }

  /** Ids of copies whose status is `Available`. */
  function AvailableInstances(s: Store): set<Id> {
    set i | i in s.instances && s.instances[i].status == "Available"
  }

  /** Referential integrity: every reference held by a record names a stored record. */
  predicate Referential(s: Store) {
    && (forall b :: b in s.books ==> s.books[b].author in s.authors)
    && (forall b :: b in s.books ==> forall g :: g in s.books[b].genre ==> g in s.genres)
    && (forall i :: i in s.instances ==> s.instances[i].book in s.books)
  }
}

=== FILE: text.dfy ===
/**
 * The string sanitisers and validators the catalog's form rules rely on:
 * whitespace trimming, HTML escaping and the alphanumeric check.
 */
module Text {

  /** The characters matched by JavaScript's `\s` class, which `trim` removes. */
  predicate IsSpace(c: char) {
    || c == ' ' || c == '\t' || c == '\n' || c == '\r'
    || c == '\U{000B}' || c == '\U{000C}' || c == '\U{00A0}' || c == '\U{1680}'
    || ('\U{2000}' <= c <= '\U{200A}')
    || c == '\U{2028}' || c == '\U{2029}' || c == '\U{202F}' || c == '\U{205F}'
    || c == '\U{3000}' || c == '\U{FEFF}'
  }

  /** Number of whitespace characters at the front of `s`. */
  function LeadingSpaces(s: string): (n: nat)
    ensures n <= |s|
    ensures forall k :: 0 <= k < n ==> IsSpace(s[k])
    ensures n < |s| ==> !IsSpace(s[n])
  {
    if |s| > 0 && IsSpace(s[0]) then 1 + LeadingSpaces(s[1..]) else 0
  }

  /** Number of whitespace characters at the back of `s`. */
  function TrailingSpaces(s: string): (n: nat)
    ensures n <= |s|
    ensures forall k :: |s| - n <= k < |s| ==> IsSpace(s[k])
    ensures n < |s| ==> !IsSpace(s[|s| - 1 - n])
  {
    if |s| > 0 && IsSpace(s[|s| - 1]) then 1 + TrailingSpaces(s[..|s| - 1]) else 0
  }

  /**
   * `s` with leading and trailing whitespace removed. The result is a
   * contiguous piece of `s`, everything cut away is whitespace, and the
   * result neither starts nor ends with whitespace.
   */
  function Trim(s: string): (r: string)
    ensures r == [] <==> forall k :: 0 <= k < |s| ==> IsSpace(s[k])
    ensures r != [] ==> !IsSpace(r[0]) && !IsSpace(r[|r| - 1])
  {
    var t := s[LeadingSpaces(s)..];
    t[..|t| - TrailingSpaces(t)]
  }

  /** What `Trim` cuts away is whitespace, and what it keeps is one contiguous piece of `s`. */
  lemma TrimIsPiece(s: string)
    ensures TrimmedAt(s, Trim(s), LeadingSpaces(s))
  {
  }

  /** `r` sits at offset `i` of `s` and only whitespace surrounds it. */
  ghost predicate TrimmedAt(s: string, r: string, i: nat) {
    && i + |r| <= |s|
    && s[i..i + |r|] == r
    && (forall k :: 0 <= k < i ==> IsSpace(s[k]))
    && (forall k :: i + |r| <= k < |s| ==> IsSpace(s[k]))
  }

  /** A required form field fails when nothing is left after trimming. */
  predicate IsBlank(s: string) {
    Trim(s) == []
  }

  /**
   * Trimming is determined by its specification: any piece of `s` that is
   * surrounded only by whitespace and has no whitespace at either end is
   * exactly `Trim(s)`.
   */
  lemma TrimUnique(s: string, r: string, i: nat)
    requires TrimmedAt(s, r, i)
    requires r != [] ==> !IsSpace(r[0]) && !IsSpace(r[|r| - 1])
    ensures r == Trim(s)
  {
    var t := Trim(s);
    var j := LeadingSpaces(s);
    TrimIsPiece(s);
    if r == [] {
      forall k | 0 <= k < |s| ensures IsSpace(s[k]) {
        if k >= i { assert i + |r| <= k; }
      }
    } else {
      assert s[i] == r[0];
      assert t != [] by { assert !IsSpace(s[i]); }
      assert s[j] == t[0];
      assert i == j;
      assert i + |r| == j + |t|;
    }
  }

  /** Trimming twice is trimming once. */
  lemma TrimIdempotent(s: string)
    ensures Trim(Trim(s)) == Trim(s)
  {
    var r := Trim(s);
    assert TrimmedAt(r, r, 0) by { assert r[0..|r|] == r; }
    TrimUnique(r, r, 0);
  }

  /** The replacement validator.js's `escape` makes for one character. */
  function EscapeChar(c: char): string {
    match c
    case '&' => "&amp;"
    case '"' => "&quot;"
    case '\'' => "&#x27;"
    case '<' => "&lt;"
    case '>' => "&gt;"
    case '/' => "&#x2F;"
    case '\\' => "&#x5C;"
    case '`' => "&#96;"
    case _ => [c]
  }

  /** HTML-escapes `s`; no input grows shorter, and only the empty string escapes to empty. */
  function Escape(s: string): (r: string)
    ensures |r| >= |s|
    ensures r == [] <==> s == []
  {
    if s == [] then [] else EscapeChar(s[0]) + Escape(s[1..])
  }

  /** True if `t` starts with `p`. */
  predicate StartsWith(t: string, p: string) {
    |p| <= |t| && forall k :: 0 <= k < |p| ==> t[k] == p[k]
  }

  /** True if `c` is one of the characters `escape` replaces by an entity. */
  predicate IsMarkup(c: char) {
    c == '&' || c == '"' || c == '\'' || c == '<' || c == '>' || c == '/' || c == '\\' || c == '`'
  }

  /** The inverse of `Escape`: decodes the eight entities `Escape` produces. */
  function Unescape(t: string): string
    decreases |t|
  {
    if t == [] then []
    else if t[0] != '&' then [t[0]] + Unescape(t[1..])
    else if StartsWith(t, "&amp;") then "&" + Unescape(t[5..])
    else if StartsWith(t, "&quot;") then "\"" + Unescape(t[6..])
    else if StartsWith(t, "&#x27;") then "'" + Unescape(t[6..])
    else if StartsWith(t, "&lt;") then "<" + Unescape(t[4..])
    else if StartsWith(t, "&gt;") then ">" + Unescape(t[4..])
    else if StartsWith(t, "&#x2F;") then "/" + Unescape(t[6..])
    else if StartsWith(t, "&#x5C;") then "\\" + Unescape(t[6..])
    else if StartsWith(t, "&#96;") then "`" + Unescape(t[5..])
    else [t[0]] + Unescape(t[1..])
  }

  /** A character `Escape` leaves alone is read back as itself. */
  lemma UnescapePlain(c: char, rest: string)
    requires !IsMarkup(c)
    ensures Unescape(EscapeChar(c) + rest) == [c] + Unescape(rest)
  {
    var t := EscapeChar(c) + rest;
    assert EscapeChar(c) == [c];
    assert t[1..] == rest;
  }

  /** Each of the eight entities is read back as the character it stands for. */
  lemma UnescapeEntity(c: char, rest: string)
    requires IsMarkup(c)
    ensures Unescape(EscapeChar(c) + rest) == [c] + Unescape(rest)
  {
    var e := EscapeChar(c);
    var t := e + rest;
    assert t[|e|..] == rest;
    assert forall k :: 0 <= k < |e| ==> t[k] == e[k];
    if c == '&' {
    } else if c == '"' {
      assert t[1] == 'q';
    } else if c == '\'' {
      assert t[1] == '#' && t[3] == '2' && t[4] == '7';
    } else if c == '<' {
      assert t[1] == 'l';
    } else if c == '>' {
      assert t[1] == 'g';
    } else if c == '/' {
      assert t[1] == '#' && t[3] == '2' && t[4] == 'F';
    } else if c == '\\' {
      assert t[1] == '#' && t[3] == '5';
    } else {
      assert t[1] == '#' && t[2] == '9';
    }
  }

  /** Unescaping undoes the escaping of one character, whatever follows it. */
  lemma UnescapeChar(c: char, rest: string)
    ensures Unescape(EscapeChar(c) + rest) == [c] + Unescape(rest)
  {
    if IsMarkup(c) {
      UnescapeEntity(c, rest);
    } else {
      UnescapePlain(c, rest);
    }
  }

  /** Escaping loses nothing: unescaping recovers the input. */
  lemma {:induction false} UnescapeEscape(s: string)
    ensures Unescape(Escape(s)) == s
  {
    if s != [] {
      UnescapeChar(s[0], Escape(s[1..]));
      UnescapeEscape(s[1..]);
      assert [s[0]] + s[1..] == s;
    }
  }

  /** Two inputs escape alike only if they are equal. */
  lemma EscapeInjective(a: string, b: string)
    ensures Escape(a) == Escape(b) <==> a == b
  {
    if Escape(a) == Escape(b) {
      UnescapeEscape(a);
      UnescapeEscape(b);
    }
  }

  /** validator.js's default (en-US) alphanumeric class. */
  predicate IsAlnumChar(c: char) {
    ('0' <= c <= '9') || ('a' <= c <= 'z') || ('A' <= c <= 'Z')
  }

  /** `isAlphanumeric`: non-empty and every character a letter or digit. */
  predicate IsAlphanumeric(s: string) {
    |s| > 0 && forall k :: 0 <= k < |s| ==> IsAlnumChar(s[k])
  }

  /** Escaping leaves strings of letters and digits unchanged. */
  lemma {:induction false} EscapeAlnumIdentity(s: string)
    requires forall k :: 0 <= k < |s| ==> IsAlnumChar(s[k])
    ensures Escape(s) == s
  {
    if s != [] {
      EscapeAlnumIdentity(s[1..]);
      assert [s[0]] + s[1..] == s;
    }
  }

  lemma {:induction false} EscapeKeepsNonAlnum(s: string, k: nat)
    requires k < |s| && !IsAlnumChar(s[k])
    ensures exists m :: 0 <= m < |Escape(s)| && !IsAlnumChar(Escape(s)[m])
  {
    var e := EscapeChar(s[0]);
    if k == 0 {
      assert Escape(s)[0] == e[0];
    } else {
      EscapeKeepsNonAlnum(s[1..], k - 1);
      var m :| 0 <= m < |Escape(s[1..])| && !IsAlnumChar(Escape(s[1..])[m]);
      assert Escape(s)[|e| + m] == Escape(s[1..])[m];
    }
  }

  /**
   * The alphanumeric check runs after `escape` in the author name rules;
   * escaping neither makes a name pass nor fail it.
   */
  lemma AlphanumericAfterEscape(s: string)
    ensures IsAlphanumeric(Escape(s)) <==> IsAlphanumeric(s)
  {
    if IsAlphanumeric(s) {
      EscapeAlnumIdentity(s);
    } else if s != [] {
      var k :| 0 <= k < |s| && !IsAlnumChar(s[k]);
      EscapeKeepsNonAlnum(s, k);
    }
  }
}

=== FILE: wrappers.dfy ===
/** The optional-value datatype used for nullable store lookups and casts. */
module Wrappers {

  /** A value that may be missing, as a `findById` result may be `null`. */
  datatype Option<+T> = None | Some(value: T)
}
